=== FILE: README.md ===
# quick_auth: the OAuth2 token and credential engine, in Dafny

This project models the core of the `quick_auth` Ruby gem as pure functions
over immutable records. The gem is an OAuth2 token issuer for Rails
applications.

The model covers six parts:

- **Client registry** (`Clients`): `register`, `find_with_uuid` and
  `authenticate`. Both back-ends share the same class methods.
- **Token store**, in two variants:
  - `ArTokens`, the ActiveRecord token. It re-issues the access token only
    when it is near expiry, and keeps the refresh token for the token's
    whole life.
  - `LegacyTokens`, the Mongoid-era token. Every refresh re-issues both
    tokens for one hour.
  - Both variants share `Tokens`: the record, the bearer lookup, the
    30-per-pair retention sweep and the common `to_api` fields.
- **Grant store** (`Grants`): ten-minute authorization codes. The Mongoid
  `expired`/`not_expired` scopes and the strict schema_sync and ActiveRecord
  scopes are both modelled.
- **Credential verifier**, in two variants:
  - `Authentic`: salted SHA-512, iterated 20 times.
  - `ArAuthentic`: BCrypt, with optional token columns.
  - Both cover the persistent and perishable tokens.
- **Token endpoint** (`Endpoints`): the `authenticate_client` filter, the
  `grant_type` dispatch, the password and refresh handlers, and the
  `AuthError` rescue.
- **Request authentication** (`Authentication`): bearer-header parsing,
  `current_token`, `current_user` (session first, then token), caching
  through `nil`/`false`, `current_user=` and `sign_out_keeping_session!`.

Some inputs are parameters rather than modelled code:

- **Stores** are sequences kept in insertion (primary-key) order. A query's
  `.first` is the first matching element (`Base.First`).
- **Time** is an integer number of seconds, `now`.
- **`SecureRandom.hex(16)`** is a 16-byte draw rendered as 32 lower-case hex
  characters (`Hex.Hex16`). Its decoding is proved to give the draw back.
- **SHA-512** is the parameter `hash`.
- **BCrypt** is the parameter `BCrypt(create, verify)`.
- **`SecureRandom.base64(15)`** is the base64 text it returns.
- **Host and role configuration** is a parameter too: the host's
  `User.authenticate`, and which class plays the `:token` role.
- **Ruby exceptions** are `Outcome.Raised(fault)`, so the error paths are
  part of every contract.

Strings are sequences of Unicode code points. `blank?` and `present?`
follow ActiveSupport's `/\A[[:space:]]*\z/`, so every code point with the
Unicode White_Space property counts as blank (`Text.IsUnicodeSpace`), the
no-break space U+00A0 and the ideographic space U+3000 included. The
`split(/\s/)` and `strip` the code also uses are ASCII-only (`Text.IsSpace`).

Three places where the code and the natural reading of the design disagree
are modelled as the code behaves:

- **Client lookup raises.** `Client.authenticate` calls `find_with_uuid`,
  which falls back to the primary-key `find`. That call raises when no
  client matches, instead of answering `nil`. `Clients.Authenticate`
  therefore returns `Raised(RecordNotFound)` for an unknown id, and the
  token endpoint lets that exception escape.
- **No fallback branch for grant types.** The token action has no
  `authorization_code` branch and no `else`. An unsupported grant type
  renders nothing and raises nothing.
- **Retention is 30, not 20.** The comment above `clean_tokens` says 20
  tokens are kept per pair, but the code keeps 30 (`Tokens.Retained`).

## Model

| member | source | states |
|---|---|---|
| Hex.Hex16 | lib/quick_auth/active_record/token.rb:67-69 | `generate_token` gives 32 lower-case hex characters that decode back to the 16 drawn bytes |
| Hex.EncodeInjective | lib/quick_auth/token.rb:63-65 | distinct draws give distinct tokens, so hex tokens are as unique as the randomness behind them |
| Clients.NewClient | lib/quick_auth/client.rb:42 | a new client record has `access_token_expires_in` 3600 and no uuid, name or secret |
| Clients.Register | lib/quick_auth/client.rb:52-59 | `register(name)` appends exactly one client with that name, the drawn uuid and a 32-character hex secret; it does not check the name is unused |
| Clients.FindWithUuid | lib/quick_auth/client.rb:61-63 | a uuid match wins whenever one exists; otherwise a primary-key match; with neither, the lookup raises `RecordNotFound` |
| Clients.Authenticate | lib/quick_auth/client.rb:65-72 | the client `find_with_uuid` finds is returned iff its secret equals the given one exactly, and `nil` is answered iff it differs; the lookup's not-found error propagates; it answers without producing a new store, so it is read-only |
| Clients.AuthenticateExact | lib/quick_auth/active_record/client.rb:45-52 | with unique uuids, a client's uuid authenticates with its own secret and with no other value, which gives `nil` |
| Clients.RegisterThenAuthenticate | lib/quick_auth/active_record/client.rb:32-39 | a newly registered client authenticates with its uuid and secret, every other secret is refused, and uuids stay unique |
| Tokens.CleanTokens | lib/quick_auth/active_record/token.rb:76-84 | a pair with more than 30 tokens is cut to exactly 30; a pair with at most 30 is left as is; other pairs' tokens are untouched |
| Tokens.CleanTokensCount | lib/quick_auth/active_record/token.rb:76-84 | after the sweep the pair has `min(count, 30)` tokens and every other pair's tokens are the same sequence |
| Tokens.CleanTokensRetention | lib/quick_auth/token.rb:72-78 | the surviving pair tokens are a sub-multiset of the old ones, and every deleted token is no younger than every kept one |
| Tokens.CleanTokensKeepsNewest | lib/quick_auth/active_record/token.rb:40-42 | with `oldest_first` ordering, the newest token of the pair, stored last, survives the sweep and stays last |
| Tokens.CleanTokensSubset | lib/quick_auth/token.rb:72-78 | the sweep only deletes: the result is a sub-multiset of the store |
| Tokens.AppendNewestSurvives | lib/quick_auth/token.rb:43-54 | a token saved at `now`, with no younger token of its pair stored, survives the `clean_tokens` that `generate` runs after saving it |
| Tokens.FindWithValidAccessToken | lib/quick_auth/active_record/token.rb:71-74 | a token is returned only if its access token matches and its expiry is strictly after `now`; `nil` exactly when no matching token is unexpired |
| Tokens.FindAtExpiry | lib/quick_auth/active_record/token.rb:88-90 | a uniquely held access token is accepted strictly before its expiry instant and rejected from that instant on |
| Tokens.FindUnique | lib/quick_auth/token.rb:67-70 | a uniquely held access token is found exactly while `access_token_valid?` holds |
| Tokens.CorePayload | lib/quick_auth/token.rb:102-110 | legacy `to_api` has exactly five keys: `token_type` "bearer", `expires_in` = expiry − now, and the access token, refresh token and scope as stored; with no expiry it raises |
| ArTokens.Rotate | lib/quick_auth/active_record/token.rb:92-103 | near expiry (unset, or under 10 s left) a new access token and expiry `now + expires_in` (3600 if absent) are set; otherwise nothing changes; the refresh token never changes; the expiry is always set afterwards |
| ArTokens.RotateIdempotent | lib/quick_auth/active_record/token.rb:92-103 | with a lifetime of at least 10 s, a second rotation at the same instant changes nothing, whatever is drawn |
| ArTokens.Generate | lib/quick_auth/active_record/token.rb:45-57 | the new token is bound to `client.uuid`, the owner id and the scope; it has the drawn refresh token, an access token and an expiry `now + client lifetime`; other pairs are untouched |
| ArTokens.GenerateStores | lib/quick_auth/active_record/token.rb:45-57 | with a monotone clock the new token is stored last as the pair's newest, and the pair then holds `min(count + 1, 30)` tokens |
| ArTokens.GenerateThenFind | lib/quick_auth/active_record/token.rb:71-74 | with a positive lifetime and an access token no stored token carries, the bearer lookup at the same instant finds exactly the generated token |
| ArTokens.Refresh | lib/quick_auth/active_record/token.rb:59-65 | `nil` and an unchanged store when no token has both `client.uuid` and `rt`; otherwise the first such token, put through `Rotate` with the client's lifetime, is returned and written back at its own position, nothing else changing; no token's refresh token or client changes |
| ArTokens.RefreshKeepsFreshToken | lib/quick_auth/active_record/token.rb:96 | a matching token with 10 s or more left is returned as it is and the store is not written |
| ArTokens.RefreshTokenStable | lib/quick_auth/active_record/token.rb:92-103 | after any number of refreshes, every stored token keeps its refresh token and client id |
| ArTokens.RefreshReusable | lib/quick_auth/active_record/token.rb:59-65 | a refresh token accepted once is accepted again after any sequence of refreshes |
| ArTokens.ToApi | lib/quick_auth/active_record/token.rb:113-123 | exactly seven keys: the five common fields unchanged, plus `expires_at` and `created_at`; with no expiry it raises |
| ArTokens.GeneratedApi | lib/quick_auth/active_record/token.rb:113-123 | the response for a new token is bearer, with `expires_in` equal to the client's lifetime, the drawn access and refresh tokens, and the requested scope |
| LegacyTokens.Rotate | lib/quick_auth/token.rb:86-92 | always a new access token, a new refresh token and an expiry one hour from `now`; valid now, invalid an hour later; binding fields unchanged |
| LegacyTokens.Generate | lib/quick_auth/token.rb:43-54 | the new token is bound to `client.uuid`, the owner and the scope; it has the rotation's drawn tokens and a one-hour expiry; other pairs are untouched |
| LegacyTokens.GenerateIgnoresFirstDraw | lib/quick_auth/token.rb:48-49 | the refresh token drawn first is overwritten by the rotation, and the client's configured lifetime is ignored: neither affects the outcome |
| LegacyTokens.GenerateStores | lib/quick_auth/token.rb:72-78 | with a monotone clock the generated token survives the sweep as the pair's newest, and the pair then holds `min(count + 1, 30)` tokens |
| LegacyTokens.Refresh | lib/quick_auth/token.rb:56-61 | `nil` and an unchanged store exactly when no token has both `client.uuid` and `rt`; otherwise the first such token, put through `Rotate`, is returned with the drawn access and refresh tokens and an expiry `now + 3600`, and written back at its own position, nothing else changing |
| LegacyTokens.RefreshSingleUse | lib/quick_auth/token.rb:86-92 | once a refresh succeeds and draws a different refresh token, the old refresh token is refused at every later time |
| LegacyTokens.GenerateThenFind | lib/quick_auth/token.rb:43-54 | with a monotone clock and an access token no stored token carries, the bearer lookup at the same instant finds exactly the generated token |
| LegacyTokens.GeneratedApi | lib/quick_auth/token.rb:102-110 | the response for a new token is exactly bearer, `expires_in` 3600, the drawn access and refresh tokens, and the requested scope |
| LegacyTokens.CleanTokensAsWritten | lib/quick_auth/token.rb:72-78 | with a `delete_all` that ignores the limit, a pair over 30 tokens is emptied, a pair of at most 30 is left alone, and other pairs are untouched |
| LegacyTokens.GenerateAsWritten | lib/quick_auth/token.rb:43-54 | followed by the as-written sweep, `generate` saves the same token; below 30 stored pair tokens it agrees with the intended outcome, and from 30 on it leaves the pair empty |
| LegacyTokens.GenerateAsWrittenLosesToken | lib/quick_auth/token.rb:72-78 | when the pair already holds 30 tokens, the token just issued is deleted at once and its access token is refused |
| LegacyTokens.RefreshThenFind | lib/quick_auth/token.rb:67-70 | the refreshed access token, if no stored token already carried it, is accepted for the next hour and refused from then on |
| Grants.MongoidScopesPartition | lib/quick_auth/grant.rb:43-48 | on Mongoid every grant is in exactly one of `expired` and `not_expired` |
| Grants.SchemaSyncScopesGap | lib/quick_auth/grant.rb:68-73 | on schema_sync the scopes never overlap, and a grant is in neither exactly when it was created 600 s before `now` |
| Grants.CleanGrants | lib/quick_auth/grant.rb:88-90 | a grant survives iff it is not both of the pair and expired, so unexpired grants and other pairs' grants are kept |
| Grants.CleanGrantsIdempotent | lib/quick_auth/active_record/grant.rb:52-54 | cleaning twice at the same instant deletes nothing more |
| Grants.CleanGrantsKeepsUnexpired | lib/quick_auth/grant.rb:88-90 | when none of the pair's grants has expired, cleaning leaves the store exactly as it was |
| Grants.Generate | lib/quick_auth/grant.rb:76-86 | the new grant has `client.uuid`, the owner id, a drawn code, the scope and `created_at = now`; it is kept; the other survivors are exactly those `clean_grants` keeps |
| Grants.FindWithCodeForClient | lib/quick_auth/grant.rb:92-94 | a grant is returned only if client and code match and `not_expired` admits it; `nil` iff no such grant is admitted |
| Grants.FindUnique | lib/quick_auth/active_record/grant.rb:56-58 | a grant whose code no other grant of its client shares is found exactly while `not_expired` admits it |
| Grants.RedeemWindow | lib/quick_auth/active_record/grant.rb:32-37 | a uniquely coded grant is redeemable `d` s after creation when `d < 600`, never when `d > 600`, and at exactly 600 s only on Mongoid |
| Grants.GenerateThenRedeem | lib/quick_auth/active_record/grant.rb:40-50 | with an unused drawn code, the new grant is redeemed by its code on every back-end during the first ten minutes |
| Grants.ToApi | lib/quick_auth/grant.rb:112-117 | exactly the keys `code` and `scope`, with the stored values |
| Grants.GeneratedApi | lib/quick_auth/active_record/grant.rb:76-81 | the response for a new grant carries 32 hex characters that decode to the draw, and the requested scope |
| Text.Split | lib/quick_auth/authentication.rb:107 | `split(/\s/)`: the fields between single whitespace characters, up to and including the last non-empty one, with every field after it empty; no field contains whitespace |
| Text.FieldsJoin | lib/quick_auth/authentication.rb:107 | splitting loses nothing: re-joining the fields with the original separators gives the header back |
| Text.SplitSchemeAndCredential | lib/quick_auth/authentication.rb:107 | `scheme credential`, both free of whitespace, splits into exactly those two words |
| Text.Delete | lib/quick_auth/authentic.rb:72 | a character is in the result iff it is in the input and not in the deleted set |
| Text.DeleteConcat | lib/quick_auth/authentic.rb:72 | `delete` distributes over concatenation, so it keeps the order of what it keeps |
| Text.DeleteChar | lib/quick_auth/authentic.rb:72 | a single character is kept exactly when it is not a deleted one; with `DeleteConcat` this fixes every result |
| Text.Strip | lib/quick_auth/authentic.rb:72 | the result is a contiguous slice of the input whose cut-off prefix and suffix are all whitespace or NUL, and which itself neither starts nor ends with either |
| Text.SpaceIsBlank | lib/quick_auth/authentic.rb:80 | every `\s` character is blank for `present?`, but not conversely: U+00A0 is blank and still a word for `split` |
| Authentic.DigestShape | lib/quick_auth/authentic.rb:64-68 | the digest is `hash` applied to the 19-times-hashed joined password and salt, so it is an output of the hash, of the hash's width, and a `nil` password digests like the empty one |
| Authentic.FriendlyToken | lib/quick_auth/authentic.rb:70-73 | the token contains no `+`, `/`, `=` or newline, only characters of the random text, and is no longer than it |
| Authentic.FriendlyTokenOfBase64 | lib/quick_auth/authentic.rb:70-73 | on real base64 text the token is the text with `+`, `/` and `=` removed: letters and digits only |
| Authentic.Authenticated | lib/quick_auth/authentic.rb:78-83 | `authenticated?` is true iff the digest matches, or a present persistent token equals `pw`, or a valid perishable token equals `pw`; "present" excludes tokens of Unicode whitespace only |
| Authentic.BlankPersistentTokenRefused | lib/quick_auth/authentic.rb:80 | with no password digest and no valid perishable token, a blank persistent token, including one of Unicode whitespace only such as U+00A0, authenticates nothing, not even the empty string or itself |
| Authentic.SetPassword | lib/quick_auth/authentic.rb:89-95 | a present value is stored with a newly drawn salt; a blank value, Unicode whitespace included, changes nothing; the token columns are untouched |
| Authentic.SetPasswordThenAuthenticated | lib/quick_auth/authentic.rb:89-95 | after `password = v` with `v` present, `authenticated?(v)` holds at any time |
| Authentic.SetPasswordSatisfiesRequired | lib/quick_auth/authentic.rb:97-99 | when hash outputs are never blank, setting a present password makes `password_required?` false |
| Authentic.ResetPerishableToken | lib/quick_auth/authentic.rb:105-109 | the perishable token becomes the friendly token, expiring one day after `now`; password and persistent columns are untouched |
| Authentic.ResetThenValid | lib/quick_auth/authentic.rb:101-103 | a reset token is valid at `now + d` iff `d` is under one day and the friendly token is not blank |
| Authentic.FindUsingPerishableToken | lib/quick_auth/authentic.rb:22-28 | a user is returned only if the token matches and the expiry is strictly after `now`; `nil` iff no matching user is unexpired |
| Authentic.ResetThenFind | lib/quick_auth/authentic.rb:22-28 | a freshly reset token no other user holds finds that user for a day and nobody afterwards |
| ArAuthentic.PerishableTokenValid | lib/quick_auth/active_record/authentic.rb:58-60 | without the perishable columns the check raises; otherwise it holds iff the token is present (not `nil`, not only Unicode whitespace) and its expiry is set and strictly after `now` |
| ArAuthentic.AuthenticatedBranches | lib/quick_auth/active_record/authentic.rb:33-38 | `authenticated?` is true iff the BCrypt check accepts a present digest, or a declared present persistent token equals `pw`, or a declared valid perishable token equals `pw`, where present means not `nil` and not only Unicode whitespace |
| ArAuthentic.NoBranchRefuses | lib/quick_auth/active_record/authentic.rb:35-37 | without token columns and with a blank digest every candidate is refused, and undeclared columns never influence the answer |
| ArAuthentic.SetPassword | lib/quick_auth/active_record/authentic.rb:44-52 | a present value gets a new BCrypt digest; a blank one, Unicode whitespace included, clears both the password and the digest; token columns are untouched |
| ArAuthentic.SetPasswordThenAuthenticated | lib/quick_auth/active_record/authentic.rb:44-52 | with a sound BCrypt that never returns a blank digest, a present password authenticates right after it is set |
| ArAuthentic.SetPasswordRequired | lib/quick_auth/active_record/authentic.rb:54-56 | after `password = v`, `password_required?` holds exactly when `v` was blank |
| ArAuthentic.ResetPerishableToken | lib/quick_auth/active_record/authentic.rb:62-66 | without the columns the writes raise; otherwise the token is the friendly token, valid for one day from `now` |
| ArAuthentic.ResetThenValid | lib/quick_auth/active_record/authentic.rb:62-66 | after a reset the token is valid at `now + d` iff `d` is under one day and the friendly token is not blank |
| ArAuthentic.FindUsingPerishableToken | lib/quick_auth/active_record/authentic.rb:8-10 | on a table without the columns the query raises; otherwise a user is returned only if the token matches and the expiry is strictly after `now`, and `nil` iff none is |
| ArAuthentic.ResetThenFind | lib/quick_auth/active_record/authentic.rb:8-10 | a freshly reset token no other user holds finds that user for a day and nobody afterwards |
| Endpoints.RenderError | lib/quick_auth/oauth2/endpoints.rb:60-62 | `render_error` never returns: it raises `AuthError` carrying the given map unchanged |
| Endpoints.Rescue | lib/quick_auth/oauth2/endpoints.rb:9-11 | an `AuthError` becomes a 400 response whose body is exactly the error's data; other exceptions and normal results pass through |
| Endpoints.AuthenticateClient | lib/quick_auth/oauth2/endpoints.rb:26-31 | the filter yields a client with exactly the given secret; a wrong secret raises `AuthError(invalid_client)`; an unknown id raises `RecordNotFound` |
| Endpoints.ClientFailsFirst | lib/quick_auth/oauth2/endpoints.rb:8 | a wrong client secret answers 400 `invalid_client` whatever the grant type and other parameters, and writes nothing |
| Endpoints.Dispatch | lib/quick_auth/oauth2/endpoints.rb:14-22 | "password" goes to the password handler, "refresh_token" to the refresh handler, and any other value, `nil` included, renders nothing and writes nothing |
| Endpoints.HandlePassword | lib/quick_auth/oauth2/endpoints.rb:33-44 | `invalid_grant` iff the host refuses the user; otherwise the token generated for (client, user, scope) is rendered with status 200 |
| Endpoints.HandleRefreshAsWritten | lib/quick_auth/oauth2/endpoints.rb:46-54 | the one-argument call to `refresh_access_token` raises `ArgumentError` |
| Endpoints.HandleRefresh | lib/quick_auth/oauth2/endpoints.rb:46-54 | with the client passed along, `invalid_grant` iff the client holds no token with that refresh token; otherwise the request succeeds, the store becomes the one `refresh_access_token` writes, and the `to_api` of one of the client's tokens is rendered with status 200 |
| Endpoints.TokenApi | lib/quick_auth/oauth2/endpoints.rb:56-58 | the rendered token always has `token_type` "bearer" and the token's own access and refresh tokens; it raises only when the expiry is unset |
| Endpoints.DispatchOutcome | lib/quick_auth/oauth2/endpoints.rb:14-22 | after client authentication the action ends in a token of that client, `invalid_grant`, `ArgumentError`, or nothing rendered with nothing written |
| Endpoints.SingleOutcome | lib/quick_auth/oauth2/endpoints.rb:38-53 | every request ends in exactly one way: an escaped exception, a 200 token of the authenticated client, a 400 with `invalid_client` or `invalid_grant` and no write, or no render |
| Endpoints.PasswordGrant | lib/quick_auth/oauth2/endpoints.rb:33-44 | end to end: an accepted user gets the generated token's `to_api` with status 200 and a token bound to the client and user; a refused one gets 400 `invalid_grant` and nothing is stored |
| Endpoints.RefreshAsWrittenFails | lib/quick_auth/oauth2/endpoints.rb:48 | as written, every refresh request from an authenticated client escapes as `ArgumentError`, even when the client holds that refresh token |
| Endpoints.RefreshWithClient | lib/quick_auth/oauth2/endpoints.rb:46-54 | with the client passed, a held refresh token renders the refreshed token, and an unknown one answers 400 `invalid_grant` with the store untouched |
| Authentication.BearerCredential | lib/quick_auth/authentication.rb:107-109 | a credential is offered iff the first whitespace-separated part is exactly "Bearer"; it is the last part |
| Authentication.SignInFromToken | lib/quick_auth/authentication.rb:104-112 | no header or no Bearer scheme changes nothing; for a Bearer credential it raises `InvalidAccessToken` iff no stored token carrying that credential is unexpired, and otherwise caches a stored, unexpired token carrying exactly that credential |
| Authentication.BearerHeaderSignsIn | lib/quick_auth/authentication.rb:104-112 | for `Bearer <credential>` the cached token is exactly what `find_with_valid_access_token` answers, and `nil` raises `InvalidAccessToken` |
| Authentication.LowerCaseSchemeIgnored | lib/quick_auth/authentication.rb:108 | the scheme is case-sensitive: `bearer <credential>` is ignored, with no lookup and no error |
| Authentication.BareSchemeIsCredential | lib/quick_auth/authentication.rb:107-109 | a header of `Bearer` alone, with or without a trailing space, offers the word "Bearer" as the credential |
| Authentication.BearerExpiry | lib/quick_auth/authentication.rb:109-111 | a request bearing a uniquely held access token signs in before its expiry and raises from the expiry instant on |
| Authentication.CurrentToken | lib/quick_auth/authentication.rb:39-44 | token sign-in happens only when no token is cached and `:token` is enabled; it never touches the user, client or session |
| Authentication.SetCurrentUser | lib/quick_auth/authentication.rb:47-50 | the session's `user_id` becomes the id or `nil`, the cache holds the user or `false`, and no other session key changes |
| Authentication.SignInFromSession | lib/quick_auth/authentication.rb:91-95 | a session user id signs that user in when they exist and raises `RecordNotFound` otherwise; no id changes nothing |
| Authentication.CurrentUser | lib/quick_auth/authentication.rb:22-30 | a cached user or `false` is answered with no lookup; a newly resolved user exists; failures are `RecordNotFound` or `InvalidAccessToken` |
| Authentication.SignedIn | lib/quick_auth/authentication.rb:16-18 | `signed_in?` is true iff `current_user` resolves to a user, neither `nil` nor `false` |
| Authentication.CurrentClient | lib/quick_auth/authentication.rb:32-37 | the client is cached; a newly resolved client is the registry's client for the current token's client id |
| Authentication.CurrentClientOfToken | lib/quick_auth/authentication.rb:32-37 | with a token cached and unique uuids, `current_client` is the registered client whose uuid the token carries, and it is cached |
| Authentication.SignOutKeepingSession | lib/quick_auth/authentication.rb:117-124 | the cached user, token and client and the session's `user_id` are cleared; every other session key stays |
| Authentication.SessionFirst | lib/quick_auth/authentication.rb:22-25 | with `:session` enabled and a known session user, that user is current and the header is never read, even one that would raise |
| Authentication.TokenFallback | lib/quick_auth/authentication.rb:26-28 | without a session user, the bearer token's owner becomes the current user and the token is cached |
| Authentication.NobodyIsSticky | lib/quick_auth/authentication.rb:47-50 | after `current_user = nil`, `current_user` answers `false` with no lookup and `signed_in?` is false |
| Authentication.AssignedUserStays | lib/quick_auth/authentication.rb:47-50 | after assigning a user, `current_user` answers that user for any request, with no lookup |
| Authentication.CurrentUserCached | lib/quick_auth/authentication.rb:21-30 | a second `current_user` call in the state the first left gives the same answer and changes nothing |
| Authentication.SignOutThenSignedIn | lib/quick_auth/authentication.rb:117-124 | after signing out, a request without an `Authorization` header is not signed in |

## Left out

- Railtie, YAML configuration and `constantize` role resolution
  (`lib/quick_auth.rb`): framework wiring. Which token class plays
  `:token`, and the host's `User.authenticate`, are parameters of
  `Endpoints.Env`. The `auth_methods` option is a parameter of
  `Authentication.Env`.
- `report_event` (`lib/quick_auth/model_base.rb`): it only logs exceptions
  from hooks, and the hooks are commented out at their call sites.
- ORM field and index declarations: only their query semantics are kept,
  as filters over sequences.
- `access_denied`, `store_location`, `redirect_back_or_default`,
  `sign_in_from_basic_auth`, `sign_out_killing_session!`/`reset_session`
  and the `helper_method` hook: HTTP redirect and UI concerns.
- SHA-512, BCrypt and `SecureRandom` internals: these are parameters.
  `ArAuthentic.SetPasswordThenAuthenticated` makes two assumptions. BCrypt
  is sound: a digest created from a value verifies it. And BCrypt never
  returns a blank digest. `Authentic` assumes a hash
  that never returns a blank string where that matters.
- `BCrypt::Password.new` raising on a malformed stored digest:
  `ArAuthentic` takes `verify` as total.
- Wall-clock time: `Time.now`, `1.day.from_now` and `10.minutes.ago` are
  integer seconds. So `(expires_at - Time.now).to_i` needs no truncation.
- ArTokens.ToApi: renders `expires_at` and `created_at` as integer seconds,
  not as ISO 8601 text, because times are integers throughout the model.
- The `reload` inside `refresh_access_token!` and every concurrent-refresh
  race: the model is one sequential store.
- The email regex in `lib/quick_auth/authentic.rb`: the validations that
  would use it are commented out.
- Ordering ties: `oldest_first` ties on `created_at` are broken by store
  order.
- LegacyTokens.GenerateStores: holds for the intended sweep that deletes
  only the `count - 30` oldest tokens. The legacy code's
  `limit(count - 30).delete_all` plausibly ignores the limit on Mongoid and
  empties the pair, including the token just issued (see Findings).
  `LegacyTokens.Generate`, and the endpoint with it, use the intended sweep.
- Owner ids are strings throughout. The records store `user.id.to_s`. The
  ActiveRecord token's `with_resource_owner` scope converts with `to_s`
  itself (`active_record/token.rb:37-38`). The other three sweeps query
  `with_resource_owner(user.id)` without `to_s` (the ORM may cast, since
  the fields are declared as strings): the legacy `clean_tokens`
  (`token.rb:74`) and both `clean_grants` (`grant.rb:89`,
  `active_record/grant.rb:53`). The model does not represent non-string
  ids, so any difference that casting would make is not modelled.
- Authentic.FriendlyToken: does not guarantee a non-blank token, because
  the source does not either. `Authentic.ResetThenValid` and
  `ArAuthentic.ResetThenValid` state the blank case explicitly.
- The memoized `@user`/`@client` of a token record: the stores do not
  change within a request, so a second lookup answers the same.
- The `:token` model's `refresh_access_token` being called by the endpoint
  with one argument: kept as written (see Findings). The corrected call is
  selected with `Endpoints.RefreshCall`.

## Findings

| source | as written | input that shows it | evidently intended | confidence | as-written member | corrected member |
|---|---|---|---|---|---|---|
| lib/quick_auth/token.rb:76 | `scp.oldest_first.limit(count - 30).delete_all`; Mongoid's `delete_all` deletes everything the filter matches, without the limit | a client and user pair already holding 30 tokens, then one more `generate`: all 31 tokens of the pair are deleted, and the access token just returned is refused | delete only the `count - 30` oldest, as the ActiveRecord class does one by one (`active_record/token.rb:80-82`) | medium: rests on Mongoid's `delete_all` ignoring `limit`; not executed | LegacyTokens.GenerateAsWrittenLosesToken | LegacyTokens.GenerateThenFind |
| lib/quick_auth/oauth2/endpoints.rb:48 | `refresh_access_token(refresh)`, while both token classes declare `refresh_access_token(client, rt)` | any request with `grant_type=refresh_token` and a valid client id and secret, even when that client holds a token with the given refresh token | `refresh_access_token(@client, refresh)`, rendering the token or `invalid_grant` | high; not executed | Endpoints.RefreshAsWrittenFails | Endpoints.RefreshWithClient |

=== FILE: ar_authentic.dfy ===
/** `QuickAuth::ActiveRecord::Authentic`: BCrypt password digests, and
    token credentials that exist only on models that declared their
    columns. BCrypt is a parameter: `create` hashes a value with a drawn
    salt, `verify` is `BCrypt::Password#is_password?`. */
module ArAuthentic {
  import opened Base
  import opened Text
  import Authentic

  /** The optional columns a model declared: `persistent_token`, and the
      pair `perishable_token` / `perishable_token_expires_at`. An
      undeclared column makes `respond_to?` false. */
  datatype Columns = Columns(persistentToken: bool, perishableToken: bool)

  datatype User = User(
    password: Option<string>,
    passwordDigest: Option<string>,
    persistentToken: Option<string>,
    perishableToken: Option<string>,
    perishableTokenExpiresAt: Option<int>)

  datatype BCrypt = BCrypt(create: (string, Random16) -> string, verify: (string, Option<string>) -> bool)

  /** A digest created from a value verifies that value. */
  ghost predicate Sound(bc: BCrypt) {
    forall v, salt :: bc.verify(bc.create(v, salt), Some(v))
  }

  /** `perishable_token_valid?`; without the columns the reads raise. */
  function PerishableTokenValid(cols: Columns, u: User, now: int): (r: Outcome<bool>)
    ensures r.Raised? <==> !cols.perishableToken
    ensures r.Raised? ==> r.fault == NoMethodError
    ensures r.Done? ==> (r.value <==>
      Present(u.perishableToken) && u.perishableTokenExpiresAt.Some? && u.perishableTokenExpiresAt.value > now)
  {
    if !cols.perishableToken then Raised(NoMethodError)
    else Done(Present(u.perishableToken) && u.perishableTokenExpiresAt.Some? && u.perishableTokenExpiresAt.value > now)
  }

  /** `authenticated?(pw)`: the BCrypt check when a digest is present, then
      each token branch only when its columns exist. */
  function Authenticated(cols: Columns, bc: BCrypt, u: User, pw: Option<string>, now: int): bool {
    if Present(u.passwordDigest) && bc.verify(u.passwordDigest.value, pw) then true
    else if cols.persistentToken && Present(u.persistentToken) && u.persistentToken == pw then true
    else if cols.perishableToken && PerishableTokenValid(cols, u, now) == Done(true) && u.perishableToken == pw then true
    else false
  }

  /** Acceptance decomposed: at least one of the three branches must hold,
      each guarded by the columns it reads. */
  lemma AuthenticatedBranches(cols: Columns, bc: BCrypt, u: User, pw: Option<string>, now: int)
    ensures Authenticated(cols, bc, u, pw, now) <==>
      || (Present(u.passwordDigest) && bc.verify(u.passwordDigest.value, pw))
      || (cols.persistentToken && Present(u.persistentToken) && u.persistentToken == pw)
      || (cols.perishableToken && Present(u.perishableToken) && u.perishableToken == pw
          && u.perishableTokenExpiresAt.Some? && u.perishableTokenExpiresAt.value > now)
  {
  }

  /** With no digest and no token columns every candidate is refused, and
      values stored in undeclared columns never matter. */
  lemma NoBranchRefuses(cols: Columns, bc: BCrypt, u: User, pw: Option<string>, now: int, other: User)
    requires !cols.persistentToken && !cols.perishableToken
    ensures Blank(u.passwordDigest) ==> !Authenticated(cols, bc, u, pw, now)
    ensures other.passwordDigest == u.passwordDigest ==>
      Authenticated(cols, bc, other, pw, now) == Authenticated(cols, bc, u, pw, now)
  {
  }

  /** `password=(value)`: a present value is stored with a new BCrypt
      digest; a blank one clears both the password and the digest. */
  function SetPassword(bc: BCrypt, u: User, value: Option<string>, salt: Random16): (r: User)
    ensures Present(value) ==> r.password == value && r.passwordDigest == Some(bc.create(value.value, salt))
    ensures Blank(value) ==> r.password.None? && r.passwordDigest.None?
    ensures r.persistentToken == u.persistentToken && r.perishableToken == u.perishableToken
    ensures r.perishableTokenExpiresAt == u.perishableTokenExpiresAt
  {
    if Present(value) then u.(password := value, passwordDigest := Some(bc.create(value.value, salt)))
    else u.(password := None, passwordDigest := None)
  }

  /** Set-then-check: with a sound BCrypt, a present password authenticates
      right after it is set. */
  lemma SetPasswordThenAuthenticated(cols: Columns, bc: BCrypt, u: User, v: Option<string>, salt: Random16, now: int)
    requires Sound(bc)
    requires Present(v)
    requires forall w, s :: Present(Some(bc.create(w, s)))
    ensures Authenticated(cols, bc, SetPassword(bc, u, v, salt), v, now)
  {
    assert bc.verify(bc.create(v.value, salt), Some(v.value));
  }

  /** `password_required?`. */
  predicate PasswordRequired(u: User) {
    Blank(u.passwordDigest)
  }

  /** After `password = v`, a password is required exactly when `v` was
      blank, unlike the legacy module where a blank value changes nothing. */
  lemma SetPasswordRequired(bc: BCrypt, u: User, v: Option<string>, salt: Random16)
    requires forall w, s :: Present(Some(bc.create(w, s)))
    ensures PasswordRequired(SetPassword(bc, u, v, salt)) <==> Blank(v)
  {
    if Present(v) {
      assert Present(Some(bc.create(v.value, salt)));
    }
  }

  /** `reset_perishable_token!`: a new friendly token valid for one day;
      without the columns the writes raise. */
  function ResetPerishableToken(cols: Columns, u: User, now: int, b64: string): (r: Outcome<User>)
    ensures r.Raised? <==> !cols.perishableToken
    ensures r.Raised? ==> r.fault == NoMethodError
    ensures r.Done? ==> r.value.perishableToken == Some(Authentic.FriendlyToken(b64))
    ensures r.Done? ==> r.value.perishableTokenExpiresAt == Some(now + Authentic.PerishableLifetime)
    ensures r.Done? ==> r.value.passwordDigest == u.passwordDigest && r.value.persistentToken == u.persistentToken
  {
    if !cols.perishableToken then Raised(NoMethodError)
    else Done(u.(perishableTokenExpiresAt := Some(now + Authentic.PerishableLifetime),
                 perishableToken := Some(Authentic.FriendlyToken(b64))))
  }

  /** A reset token is valid for exactly the next day, unless the friendly
      token came out blank. */
  lemma ResetThenValid(cols: Columns, u: User, now: int, b64: string, d: int)
    requires cols.perishableToken
    ensures var r := ResetPerishableToken(cols, u, now, b64).value;
      PerishableTokenValid(cols, r, now + d)
        == Done(Present(Some(Authentic.FriendlyToken(b64))) && d < Authentic.PerishableLifetime)
  {
  }

  predicate HoldsUnexpired(u: User, token: Option<string>, now: int) {
    u.perishableToken == token && u.perishableTokenExpiresAt.Some? && u.perishableTokenExpiresAt.value > now
  }

  /** `find_using_perishable_token(token)`: the first user with that token
      and an expiry strictly after `now`; the query fails on a table
      without the columns. */
  function FindUsingPerishableToken(cols: Columns, users: seq<User>, token: Option<string>, now: int)
    : (r: Outcome<Option<User>>)
    ensures r.Raised? <==> !cols.perishableToken
    ensures r.Raised? ==> r.fault == StatementInvalid
    ensures r.Done? && r.value.Some? ==> r.value.value in users && HoldsUnexpired(r.value.value, token, now)
    ensures r.Done? ==> (r.value.None? <==> forall u :: u in users ==> !HoldsUnexpired(u, token, now))
  {
    if !cols.perishableToken then Raised(StatementInvalid)
    else
      match First(users, u => HoldsUnexpired(u, token, now))
      case None => Done(None)
      case Some(i) => Done(Some(users[i]))
  }

  /** Reset-then-find: once user `k` resets a token no other user holds,
      the token finds that user for a day and nobody afterwards. */
  lemma {:induction false} ResetThenFind(cols: Columns, users: seq<User>, k: nat, now: int, b64: string, d: int)
    requires cols.perishableToken && k < |users|
    requires forall j :: 0 <= j < |users| && j != k ==> users[j].perishableToken != Some(Authentic.FriendlyToken(b64))
    ensures var u := ResetPerishableToken(cols, users[k], now, b64).value;
      FindUsingPerishableToken(cols, users[k := u], Some(Authentic.FriendlyToken(b64)), now + d)
        == Done(if d < Authentic.PerishableLifetime then Some(u) else None)
  {
    var u := ResetPerishableToken(cols, users[k], now, b64).value;
    var us := users[k := u];
    var r := FindUsingPerishableToken(cols, us, Some(Authentic.FriendlyToken(b64)), now + d);
    assert us[k] == u;
    if r.value.Some? {
      var j :| 0 <= j < |us| && us[j] == r.value.value;
      assert j == k;
    }
  }
}

=== FILE: ar_tokens.dfy ===
/** `QuickAuth::ActiveRecord::Token`: the access token is re-issued only when
    it is about to expire, and the refresh token drawn at generation is kept
    for the token's whole life. */
module ArTokens {
  import opened Base
  import Hex
  import opened Clients
  import opened Tokens

  /** The lifetime `refresh_access_token!` falls back to when no
      `expires_in` option is given. */
  const FallbackExpiresIn: int := 3600

  /** The rotation guard: no expiry yet, or fewer than 10 seconds left. */
  predicate NearExpiry(t: Token, now: int) {
    t.expiresAt.None? || t.expiresAt.value - now < RotationMargin
  }

  /** `refresh_access_token!(expires_in: e)`: near expiry, a new access
      token valid for `e` seconds (3600 when `e` is nil); otherwise nothing
      changes. The refresh token is never touched. */
  function Rotate(t: Token, expiresIn: Option<int>, now: int, draw: Random16): (r: Token)
    ensures r.refreshToken == t.refreshToken
    ensures r.clientId == t.clientId && r.ownerId == t.ownerId && r.scope == t.scope && r.createdAt == t.createdAt
    ensures NearExpiry(t, now) ==>
      r.accessToken == Some(Hex.Hex16(draw)) && r.expiresAt == Some(now + expiresIn.GetOr(FallbackExpiresIn))
    ensures !NearExpiry(t, now) ==> r == t
    ensures r.expiresAt.Some?
    ensures expiresIn.GetOr(FallbackExpiresIn) > 0 ==> AccessTokenValid(r, now)
  {
    if NearExpiry(t, now) then
      t.(accessToken := Some(Hex.Hex16(draw)), expiresAt := Some(now + expiresIn.GetOr(FallbackExpiresIn)))
    else t
  }

  /** A token just rotated with a lifetime of at least 10 seconds is not
      rotated again at the same instant, whatever value would be drawn. */
  lemma RotateIdempotent(t: Token, expiresIn: Option<int>, now: int, a: Random16, b: Random16)
    requires expiresIn.GetOr(FallbackExpiresIn) >= RotationMargin
    ensures Rotate(Rotate(t, expiresIn, now, a), expiresIn, now, b) == Rotate(t, expiresIn, now, a)
  {
  }

  /** `generate(client, user, scope: scope)`: a refresh token from the first
      draw, an access token from the second with the client's lifetime,
      saved at `now`, then `clean_tokens` for the pair. */
  function Generate(s: seq<Token>, client: Client, ownerId: string, scope: Option<string>, now: int,
                    refreshDraw: Random16, accessDraw: Random16): (r: (seq<Token>, Token))
    ensures r.1.clientId == client.uuid && r.1.ownerId == ownerId && r.1.scope == scope && r.1.createdAt == now
    ensures r.1.refreshToken == Some(Hex.Hex16(refreshDraw))
    ensures r.1.accessToken == Some(Hex.Hex16(accessDraw))
    ensures r.1.expiresAt == Some(now + client.accessTokenExpiresIn.GetOr(FallbackExpiresIn))
    ensures OtherTokens(r.0, client.uuid, ownerId) == OtherTokens(s, client.uuid, ownerId)
    ensures forall x :: x in r.0 ==> x in s || x == r.1
  {
    var unsaved := Token(client.uuid, ownerId, None, Some(Hex.Hex16(refreshDraw)), None, scope, now);
    var t := Rotate(unsaved, client.accessTokenExpiresIn, now, accessDraw);
    var s1 := s + [t];
    CleanTokensSubset(s1, client.uuid, ownerId);
    OtherConcat(s, [t], client.uuid, ownerId);
    assert OtherTokens([t], client.uuid, ownerId) == [];
    (CleanTokens(s1, client.uuid, ownerId), t)
  }

  /** With a clock that never runs backwards, the generated token survives
      the sweep, stored last, and the pair keeps at most 30 tokens. */
  lemma {:induction false} GenerateStores(s: seq<Token>, client: Client, ownerId: string, scope: Option<string>, now: int,
                                          a: Random16, b: Random16)
    requires forall x :: x in s ==> x.createdAt <= now
    ensures var (s', t) := Generate(s, client, ownerId, scope, now, a, b);
      && NewestLast(s', client.uuid, ownerId, t)
      && |PairTokens(s', client.uuid, ownerId)| == Min(|PairTokens(s, client.uuid, ownerId)| + 1, Retained)
  {
    var (s', t) := Generate(s, client, ownerId, scope, now, a, b);
    AppendNewestSurvives(s, t, now);
    CleanTokensCount(s + [t], client.uuid, ownerId);
    PairConcat(s, [t], client.uuid, ownerId);
    assert PairTokens([t], client.uuid, ownerId) == [t];
  }

  /** Generate-then-authenticate: when no stored token carries the drawn
      access token and the client's lifetime is positive, the bearer lookup
      at the same instant finds exactly the generated token. */
  lemma {:induction false} GenerateThenFind(s: seq<Token>, client: Client, ownerId: string, scope: Option<string>, now: int,
                                            a: Random16, b: Random16)
    requires forall x :: x in s ==> x.createdAt <= now
    requires forall x :: x in s ==> x.accessToken != Some(Hex.Hex16(b))
    requires client.accessTokenExpiresIn.GetOr(FallbackExpiresIn) > 0
    ensures var (s', t) := Generate(s, client, ownerId, scope, now, a, b);
      FindWithValidAccessToken(s', Hex.Hex16(b), now) == Some(t)
  {
    var (s', t) := Generate(s, client, ownerId, scope, now, a, b);
    GenerateStores(s, client, ownerId, scope, now, a, b);
    assert t in s' by {
      assert s'[|s'| - 1] == t;
    }
    FindUnique(s', t, now);
  }

  /** `refresh_access_token(client, rt)`: the first token of the client
      carrying `rt`, rotated with the client's lifetime and saved in place;
      `nil` and no change when none matches. */
  function Refresh(s: seq<Token>, client: Client, rt: Option<string>, now: int, draw: Random16)
    : (r: (seq<Token>, Option<Token>))
    ensures |r.0| == |s|
    ensures r.1.None? <==> forall t :: t in s ==> !MatchesRefresh(t, client.uuid, rt)
    ensures r.1.None? ==> r.0 == s
    ensures r.1.Some? ==> r.1.value in r.0 && MatchesRefresh(r.1.value, client.uuid, rt)
    ensures r.1.Some? ==> r.1.value.expiresAt.Some?
    ensures forall j :: 0 <= j < |s| ==>
      r.0[j].refreshToken == s[j].refreshToken && r.0[j].clientId == s[j].clientId
    ensures forall x :: x in r.0 ==> x in s || Some(x) == r.1
    ensures forall i :: FirstRefresh(s, client.uuid, rt, i) ==>
      r.1 == Some(Rotate(s[i], client.accessTokenExpiresIn, now, draw)) && r.0 == s[i := r.1.value]
  {
    match First(s, t => MatchesRefresh(t, client.uuid, rt))
    case None => (s, None)
    case Some(i) =>
      assert forall k :: FirstRefresh(s, client.uuid, rt, k) ==> k == i;
      var t := Rotate(s[i], client.accessTokenExpiresIn, now, draw);
      var s' := Replace(s, i, t);
      assert s'[i] == t;
      (s', Some(t))
  }

  /** A token with at least 10 seconds left is handed back unchanged, and the
      store is not written. */
  lemma RefreshKeepsFreshToken(s: seq<Token>, client: Client, rt: Option<string>, now: int, draw: Random16, k: nat)
    requires k < |s| && MatchesRefresh(s[k], client.uuid, rt)
    requires forall j :: 0 <= j < k ==> !MatchesRefresh(s[j], client.uuid, rt)
    requires !NearExpiry(s[k], now)
    ensures Refresh(s, client, rt, now, draw) == (s, Some(s[k]))
  {
    var i := First(s, t => MatchesRefresh(t, client.uuid, rt));
    assert i == Some(k);
    assert s[k := s[k]] == s;
  }

  /** `refresh_access_token` applied once per instant of `times`, each with
      its own draw. */
  function RefreshMany(s: seq<Token>, client: Client, rt: Option<string>, times: seq<int>, draws: seq<Random16>)
    : (r: seq<Token>)
    requires |times| == |draws|
    ensures |r| == |s|
    decreases |times|
  {
    if times == [] then s
    else RefreshMany(Refresh(s, client, rt, times[0], draws[0]).0, client, rt, times[1..], draws[1..])
  }

  /** The refresh token is stable: after any number of refreshes every
      stored token keeps its refresh token and client, so a refresh token
      that matched once keeps matching. */
  lemma {:induction false} RefreshTokenStable(s: seq<Token>, client: Client, rt: Option<string>,
                                              times: seq<int>, draws: seq<Random16>)
    requires |times| == |draws|
    ensures forall j :: 0 <= j < |s| ==>
      && RefreshMany(s, client, rt, times, draws)[j].refreshToken == s[j].refreshToken
      && RefreshMany(s, client, rt, times, draws)[j].clientId == s[j].clientId
    decreases |times|
  {
    if times != [] {
      var s1 := Refresh(s, client, rt, times[0], draws[0]).0;
      RefreshTokenStable(s1, client, rt, times[1..], draws[1..]);
      assert RefreshMany(s, client, rt, times, draws) == RefreshMany(s1, client, rt, times[1..], draws[1..]);
    }
  }

  /** Consequence for clients: a refresh token accepted once is accepted
      again after any sequence of refreshes. */
  lemma RefreshReusable(s: seq<Token>, client: Client, rt: Option<string>, times: seq<int>, draws: seq<Random16>,
                        now: int, draw: Random16)
    requires |times| == |draws|
    requires Refresh(s, client, rt, now, draw).1.Some?
    ensures Refresh(RefreshMany(s, client, rt, times, draws), client, rt, now, draw).1.Some?
  {
    var s' := RefreshMany(s, client, rt, times, draws);
    var k := First(s, t => MatchesRefresh(t, client.uuid, rt)).value;
    RefreshTokenStable(s, client, rt, times, draws);
    assert MatchesRefresh(s'[k], client.uuid, rt);
  }

  /** `to_api` of this back-end: the common fields plus `expires_at` and
      `created_at`. */
  function ToApi(t: Token, now: int): (r: Outcome<Payload>)
    ensures t.expiresAt.None? <==> r.Raised?
    ensures r.Raised? ==> r.fault == NoMethodError
    ensures r.Done? ==> (r.value.Keys ==
      {"access_token", "token_type", "expires_in", "expires_at", "created_at", "refresh_token", "scope"})
    ensures r.Done? ==> forall k :: k in CorePayload(t, now).value ==> r.value[k] == CorePayload(t, now).value[k]
    ensures r.Done? ==> r.value["expires_at"] == JInt(t.expiresAt.value) && r.value["created_at"] == JInt(t.createdAt)
  {
    match CorePayload(t, now)
    case Raised(f) => Raised(f)
    case Done(p) => Done(p["expires_at" := JInt(t.expiresAt.value)]["created_at" := JInt(t.createdAt)])
  }

  /** What the token endpoint renders for a freshly generated token: a
      bearer token good for the client's lifetime, with the drawn tokens. */
  lemma GeneratedApi(s: seq<Token>, client: Client, ownerId: string, scope: Option<string>, now: int,
                     a: Random16, b: Random16)
    ensures var t := Generate(s, client, ownerId, scope, now, a, b).1;
      && ToApi(t, now).Done?
      && ToApi(t, now).value["token_type"] == JStr("bearer")
      && ToApi(t, now).value["expires_in"] == JInt(client.accessTokenExpiresIn.GetOr(FallbackExpiresIn))
      && ToApi(t, now).value["access_token"] == JStr(Hex.Hex16(b))
      && ToApi(t, now).value["refresh_token"] == JStr(Hex.Hex16(a))
      && ToApi(t, now).value["scope"] == StrOrNull(scope)
  {
    var t := Generate(s, client, ownerId, scope, now, a, b).1;
    assert "token_type" in CorePayload(t, now).value;
  }
}

=== FILE: authentic.dfy ===
/** `QuickAuth::Authentic`: salted, iterated SHA-512 passwords plus two
    token credentials, a persistent one and a perishable one with an
    expiry. The hash is a parameter `hash`, standing for
    `Digest::SHA512.hexdigest`; the random base64 text behind
    `friendly_token` is a parameter too. */
module Authentic {
  import opened Base
  import opened Text

  /** Rounds of hashing in `digest`. */
  const DigestRounds: nat := 20

  /** `1.day`, the lifetime of a perishable token, in seconds. */
  const PerishableLifetime: int := 86400

  /** The characters `tr('+/=', '')` removes. */
  const UrlUnsafe: set<char> := {'+', '/', '='}

  /** The alphabet of `SecureRandom.base64`. */
  predicate IsBase64Char(c: char) {
    ('A' <= c <= 'Z') || ('a' <= c <= 'z') || ('0' <= c <= '9') || c == '+' || c == '/' || c == '='
  }

  predicate IsAlnum(c: char) {
    ('A' <= c <= 'Z') || ('a' <= c <= 'z') || ('0' <= c <= '9')
  }

  datatype User = User(
    password: Option<string>,
    cryptedPassword: Option<string>,
    passwordSalt: Option<string>,
    persistentToken: Option<string>,
    perishableToken: Option<string>,
    perishableTokenExp: Option<int>)

  /** `hash` applied `n` times. */
  function Iterate(hash: string -> string, n: nat, s: string): string {
    if n == 0 then s else Iterate(hash, n - 1, hash(s))
  }

  /** The last round is a plain application of `hash`. */
  lemma {:induction false} IterateLast(hash: string -> string, n: nat, s: string)
    ensures Iterate(hash, n + 1, s) == hash(Iterate(hash, n, s))
    decreases n
  {
    if n > 0 {
      IterateLast(hash, n - 1, hash(s));
    }
  }

  /** `digest(password, salt)`: password and salt joined, `nil` joining as
      the empty string, then hashed 20 times. */
  function Digest(hash: string -> string, pw: Option<string>, salt: Option<string>): string {
    Iterate(hash, DigestRounds, pw.GetOr("") + salt.GetOr(""))
  }

  /** The digest is an output of `hash`, so it has the hash's shape; and a
      `nil` password digests like the empty one. */
  lemma DigestShape(hash: string -> string, pw: Option<string>, salt: Option<string>, width: nat)
    requires forall s :: |hash(s)| == width
    ensures Digest(hash, pw, salt) == hash(Iterate(hash, DigestRounds - 1, pw.GetOr("") + salt.GetOr("")))
    ensures |Digest(hash, pw, salt)| == width
    ensures Digest(hash, None, salt) == Digest(hash, Some(""), salt)
  {
    IterateLast(hash, DigestRounds - 1, pw.GetOr("") + salt.GetOr(""));
  }

  /** `friendly_token` from the text `SecureRandom.base64(15)` returned:
      `+`, `/` and `=` deleted, then `strip`, then newlines deleted. */
  function FriendlyToken(b64: string): (r: string)
    ensures forall c :: c in r ==> c in b64 && c !in UrlUnsafe && c != '\n'
    ensures |r| <= |b64|
  {
    Delete(Strip(Delete(b64, UrlUnsafe)), {'\n'})
  }

  /** Base64 text without `+`, `/` and `=` holds letters and digits only. */
  lemma UnsafeDeleted(b64: string)
    requires forall c :: c in b64 ==> IsBase64Char(c)
    ensures forall c :: c in Delete(b64, UrlUnsafe) ==> IsAlnum(c) && !IsStripped(c) && c !in {'\n'}
  {
    forall c | c in Delete(b64, UrlUnsafe) ensures IsAlnum(c) && !IsStripped(c) && c !in {'\n'} {
      assert IsBase64Char(c) && c !in UrlUnsafe;
    }
  }

  /** On genuine base64 text `strip` and the newline deletion do nothing:
      the token is the text without `+`, `/` and `=`, letters and digits
      only. */
  lemma FriendlyTokenOfBase64(b64: string)
    requires forall c :: c in b64 ==> IsBase64Char(c)
    ensures FriendlyToken(b64) == Delete(b64, UrlUnsafe)
    ensures forall c :: c in FriendlyToken(b64) ==> IsAlnum(c)
  {
    var d := Delete(b64, UrlUnsafe);
    UnsafeDeleted(b64);
    assert Strip(d) == d by {
      StripNothing(d);
    }
    assert Delete(d, {'\n'}) == d by {
      DeleteNothing(d, {'\n'});
    }
  }

  /** `perishable_token_valid?`. */
  predicate PerishableTokenValid(u: User, now: int) {
    Present(u.perishableToken) && u.perishableTokenExp.Some? && u.perishableTokenExp.value > now
  }

  /** The three ways `authenticated?(pw)` accepts. */
  predicate DigestMatches(hash: string -> string, u: User, pw: Option<string>) {
    u.cryptedPassword == Some(Digest(hash, pw, u.passwordSalt))
  }

  predicate PersistentMatches(u: User, pw: Option<string>) {
    Present(u.persistentToken) && u.persistentToken == pw
  }

  predicate PerishableMatches(u: User, pw: Option<string>, now: int) {
    PerishableTokenValid(u, now) && u.perishableToken == pw
  }

  /** `authenticated?(pw)`: the digest check, then the persistent token,
      then the perishable token. */
  function Authenticated(hash: string -> string, u: User, pw: Option<string>, now: int): (ok: bool)
    ensures ok <==> DigestMatches(hash, u, pw) || PersistentMatches(u, pw) || PerishableMatches(u, pw, now)
  {
    if u.cryptedPassword == Some(Digest(hash, pw, u.passwordSalt)) then true
    else if Present(u.persistentToken) && u.persistentToken == pw then true
    else if PerishableTokenValid(u, now) && u.perishableToken == pw then true
    else false
  }

  /** A blank persistent token opens nothing: with no password digest and
      no valid perishable token, every candidate is refused, the empty
      string included. */
  lemma BlankPersistentTokenRefused(hash: string -> string, u: User, pw: Option<string>, now: int)
    requires Blank(u.persistentToken)
    requires u.cryptedPassword.None? && !PerishableTokenValid(u, now)
    ensures !Authenticated(hash, u, pw, now)
  {
  }

  /** `password=(value)`: a present value draws a new salt and stores the
      digest; a blank one changes nothing. */
  function SetPassword(hash: string -> string, u: User, value: Option<string>, b64: string): (r: User)
    ensures Blank(value) ==> r == u
    ensures Present(value) ==> r.password == value && r.passwordSalt == Some(FriendlyToken(b64))
    ensures r.persistentToken == u.persistentToken && r.perishableToken == u.perishableToken
    ensures r.perishableTokenExp == u.perishableTokenExp
  {
    if Present(value) then
      var salt := FriendlyToken(b64);
      u.(password := value, passwordSalt := Some(salt), cryptedPassword := Some(Digest(hash, value, Some(salt))))
    else u
  }

  /** Set-then-check: after `password = v` with `v` present, `v`
      authenticates at any time. */
  lemma SetPasswordThenAuthenticated(hash: string -> string, u: User, v: Option<string>, b64: string, now: int)
    requires Present(v)
    ensures Authenticated(hash, SetPassword(hash, u, v, b64), v, now)
  {
    assert DigestMatches(hash, SetPassword(hash, u, v, b64), v);
  }

  /** `password_required?`: no usable digest is stored. */
  predicate PasswordRequired(u: User) {
    Blank(u.cryptedPassword)
  }

  /** Setting a present password clears `password_required?`, since a hash
      output is never blank. */
  lemma SetPasswordSatisfiesRequired(hash: string -> string, u: User, v: Option<string>, b64: string)
    requires forall s :: Present(Some(hash(s)))
    requires Present(v)
    ensures !PasswordRequired(SetPassword(hash, u, v, b64))
  {
    var salt := FriendlyToken(b64);
    IterateLast(hash, DigestRounds - 1, v.GetOr("") + salt);
  }

  /** `reset_perishable_token!`: a new friendly token valid for one day. */
  function ResetPerishableToken(u: User, now: int, b64: string): (r: User)
    ensures r.perishableToken == Some(FriendlyToken(b64))
    ensures r.perishableTokenExp == Some(now + PerishableLifetime)
    ensures r.password == u.password && r.cryptedPassword == u.cryptedPassword
    ensures r.passwordSalt == u.passwordSalt && r.persistentToken == u.persistentToken
  {
    u.(perishableTokenExp := Some(now + PerishableLifetime), perishableToken := Some(FriendlyToken(b64)))
  }

  /** After a reset the token is valid for exactly the next day, provided
      the friendly token is not blank; a blank one is never valid. */
  lemma ResetThenValid(u: User, now: int, b64: string, d: int)
    ensures PerishableTokenValid(ResetPerishableToken(u, now, b64), now + d)
        <==> Present(Some(FriendlyToken(b64))) && d < PerishableLifetime
  {
  }

  /** `find_using_perishable_token(token)`: the first user holding that
      token with an expiry strictly after `now`, on either ORM. */
  function FindUsingPerishableToken(users: seq<User>, token: Option<string>, now: int): (r: Option<User>)
    ensures r.Some? ==> r.value in users && r.value.perishableToken == token
    ensures r.Some? ==> r.value.perishableTokenExp.Some? && r.value.perishableTokenExp.value > now
    ensures r.None? <==> forall u :: u in users && u.perishableToken == token ==>
      u.perishableTokenExp.None? || u.perishableTokenExp.value <= now
  {
    match First(users, u => HoldsUnexpired(u, token, now))
    case None => None
    case Some(i) => Some(users[i])
  }

  predicate HoldsUnexpired(u: User, token: Option<string>, now: int) {
    u.perishableToken == token && u.perishableTokenExp.Some? && u.perishableTokenExp.value > now
  }

  /** Reset-then-find: once user `k` resets a token no other user holds,
      the token finds that user for a day and nobody afterwards. */
  lemma {:induction false} ResetThenFind(users: seq<User>, k: nat, now: int, b64: string, d: int)
    requires k < |users|
    requires forall j :: 0 <= j < |users| && j != k ==> users[j].perishableToken != Some(FriendlyToken(b64))
    ensures var u := ResetPerishableToken(users[k], now, b64);
      FindUsingPerishableToken(users[k := u], Some(FriendlyToken(b64)), now + d)
        == if d < PerishableLifetime then Some(u) else None
  {
    var u := ResetPerishableToken(users[k], now, b64);
    var us := users[k := u];
    var r := FindUsingPerishableToken(us, Some(FriendlyToken(b64)), now + d);
    assert us[k] == u;
    if r.Some? {
      var j :| 0 <= j < |us| && us[j] == r.value;
      assert j == k;
    }
  }
}

=== FILE: authentication.dfy ===
/** `QuickAuth::Authentication`: resolving who a controller request acts for.
    A request may carry a user id in its session and a bearer token in its
    `Authorization` header; which of the two are consulted is the
    `auth_methods` option. Results are cached in the controller for the
    rest of the request. */
module Authentication {
  import opened Base
  import opened Text
  import opened Clients
  import opened Tokens

  /** The members `auth_methods` may list. */
  datatype AuthMethod = SessionAuth | TokenAuth

  /** `@current_user`: `nil` while unresolved, `false` once resolved to
      nobody, or the user (by id). `nil` and `false` differ only in that
      `false` stops any further lookup. */
  datatype UserSlot = Unresolved | Nobody | SignedInAs(id: string)

  /** The controller's cached state and the session hash; a key holding
      `None` is a key set to `nil`. */
  datatype Ctx = Ctx(
    user: UserSlot,
    token: Option<Token>,
    client: Option<Client>,
    session: map<string, Option<string>>)

  /** What the request and the stores offer: the configured methods, the
      raw `Authorization` header, the token store, the ids of the host's
      users, the client registry, and the clock. */
  datatype Env = Env(
    methods: set<AuthMethod>,
    header: Option<string>,
    tokens: seq<Token>,
    users: set<string>,
    clients: seq<Client>,
    now: int)

  const UserIdKey: string := "user_id"

  function SessionUserId(c: Ctx): Option<string> {
    if UserIdKey in c.session then c.session[UserIdKey] else None
  }

  /** `QuickAuth.models[:user].find(id)`: raises when there is no such user. */
  function FindUser(users: set<string>, id: string): (r: Outcome<string>)
    ensures r.Done? <==> id in users
    ensures r.Done? ==> r.value == id
    ensures r.Raised? ==> r.fault == RecordNotFound
  {
    if id in users then Done(id) else Raised(RecordNotFound)
  }

  /** The access token a header offers: split at whitespace, the first
      part must be exactly `Bearer`, and the last part is the credential. */
  function BearerCredential(header: string): (r: Option<string>)
    ensures r.Some? <==> |Split(header)| > 0 && Split(header)[0] == "Bearer"
    ensures r.Some? ==> r.value == Split(header)[|Split(header)| - 1]
  {
    var parts := Split(header);
    if |parts| == 0 || parts[0] != "Bearer" then None else Some(parts[|parts| - 1])
  }

  /** `sign_in_from_token`: nothing without a header or without the
      `Bearer` scheme; otherwise the credential must name a valid access
      token, and an unknown or expired one raises. */
  function SignInFromToken(env: Env, c: Ctx): (r: Outcome<Ctx>)
    ensures r.Raised? ==> r.fault == InvalidAccessToken
    ensures r.Done? ==> r.value.user == c.user && r.value.client == c.client && r.value.session == c.session
    ensures (env.header.None? || BearerCredential(env.header.value).None?) ==> r == Done(c)
    ensures r.Done? && r.value.token != c.token ==>
      r.value.token.Some? && r.value.token.value in env.tokens && AccessTokenValid(r.value.token.value, env.now)
    ensures env.header.Some? && BearerCredential(env.header.value).Some? ==>
      var a := BearerCredential(env.header.value).value;
      && (r.Raised? <==> forall t :: t in env.tokens && t.accessToken == Some(a) ==> !AccessTokenValid(t, env.now))
      && (r.Done? ==> r.value.token.Some? && r.value.token.value.accessToken == Some(a)
                      && r.value.token.value in env.tokens && AccessTokenValid(r.value.token.value, env.now))
  {
    match env.header
    case None => Done(c)
    case Some(h) =>
      match BearerCredential(h)
      case None => Done(c)
      case Some(at) =>
        match FindWithValidAccessToken(env.tokens, at, env.now)
        case None => Raised(InvalidAccessToken)
        case Some(t) => Done(c.(token := Some(t)))
  }

  /** `current_token`: signs in from the header only when no token is
      cached and `:token` is enabled. */
  function CurrentToken(env: Env, c: Ctx): (r: Outcome<(Ctx, Option<Token>)>)
    ensures r.Done? ==> r.value.1 == r.value.0.token
    ensures (c.token.Some? || TokenAuth !in env.methods) ==> r == Done((c, c.token))
    ensures r.Done? ==> r.value.0.user == c.user && r.value.0.client == c.client && r.value.0.session == c.session
    ensures r.Raised? ==> r.fault == InvalidAccessToken
  {
    if c.token.None? && TokenAuth in env.methods then
      match SignInFromToken(env, c)
      case Raised(f) => Raised(f)
      case Done(c') => Done((c', c'.token))
    else Done((c, c.token))
  }

  /** `current_user = u`: the session remembers the id (or `nil`), and the
      cache holds the user, or `false` for `nil`. No other session key is
      touched. */
  function SetCurrentUser(c: Ctx, u: Option<string>): (r: Ctx)
    ensures SessionUserId(r) == u
    ensures r.user == if u.Some? then SignedInAs(u.value) else Nobody
    ensures r.token == c.token && r.client == c.client
    ensures forall k :: k in c.session && k != UserIdKey ==> k in r.session && r.session[k] == c.session[k]
    ensures forall k :: k in r.session && k != UserIdKey ==> k in c.session
  {
    c.(session := c.session[UserIdKey := u], user := if u.Some? then SignedInAs(u.value) else Nobody)
  }

  /** `sign_in_from_session`: a user id in the session must name a user. */
  function SignInFromSession(env: Env, c: Ctx): (r: Outcome<Ctx>)
    ensures SessionUserId(c).None? ==> r == Done(c)
    ensures SessionUserId(c).Some? ==>
      (r.Done? <==> SessionUserId(c).value in env.users)
      && (r.Done? ==> r.value == SetCurrentUser(c, SessionUserId(c)))
    ensures r.Raised? ==> r.fault == RecordNotFound
  {
    match SessionUserId(c)
    case None => Done(c)
    case Some(id) =>
      match FindUser(env.users, id)
      case Raised(f) => Raised(f)
      case Done(u) => Done(SetCurrentUser(c, Some(u)))
  }

  /** `current_user`: the session first (when `:session` is enabled), then
      the user the current token belongs to; the answer is cached. */
  function CurrentUser(env: Env, c: Ctx): (r: Outcome<(Ctx, UserSlot)>)
    ensures r.Done? ==> r.value.1 == r.value.0.user
    ensures !c.user.Unresolved? ==> r == Done((c, c.user))
    ensures r.Done? && c.user.Unresolved? && r.value.1.SignedInAs? ==> r.value.1.id in env.users
    ensures r.Done? ==> r.value.0.client == c.client
    ensures r.Raised? ==> r.fault == RecordNotFound || r.fault == InvalidAccessToken
  {
    var o1 := if c.user.Unresolved? && SessionAuth in env.methods then SignInFromSession(env, c) else Done(c);
    match o1
    case Raised(f) => Raised(f)
    case Done(c1) =>
      if !c1.user.Unresolved? then Done((c1, c1.user))
      else
        match CurrentToken(env, c1)
        case Raised(f) => Raised(f)
        case Done((c2, tok)) =>
          match tok
          case None => Done((c2, c2.user))
          case Some(t) =>
            match FindUser(env.users, t.ownerId)
            case Raised(f) => Raised(f)
            case Done(u) => Done((c2.(user := SignedInAs(u)), SignedInAs(u)))
  }

  /** `signed_in?`: `!!current_user`, so both `nil` and `false` are out. */
  function SignedIn(env: Env, c: Ctx): (r: Outcome<(Ctx, bool)>)
    ensures r.Raised? <==> CurrentUser(env, c).Raised?
    ensures r.Done? ==> r.value.0 == CurrentUser(env, c).value.0
    ensures r.Done? ==> (r.value.1 <==> r.value.0.user.SignedInAs?)
  {
    match CurrentUser(env, c)
    case Raised(f) => Raised(f)
    case Done((c1, u)) => Done((c1, u.SignedInAs?))
  }

  /** `current_client`: the client of the current token, cached. */
  function CurrentClient(env: Env, c: Ctx): (r: Outcome<(Ctx, Option<Client>)>)
    ensures r.Done? ==> r.value.1 == r.value.0.client
    ensures c.client.Some? ==> r == Done((c, c.client))
    ensures r.Done? && c.client.None? && r.value.1.Some? ==>
      r.value.1.value in env.clients && r.value.0.token.Some?
      && (HasUuid(r.value.1.value, r.value.0.token.value.clientId) || HasKey(r.value.1.value, r.value.0.token.value.clientId))
  {
    if c.client.None? then
      match CurrentToken(env, c)
      case Raised(f) => Raised(f)
      case Done((c1, tok)) =>
        match tok
        case None => Done((c1, c1.client))
        case Some(t) =>
          match FindWithUuid(env.clients, t.clientId)
          case Raised(f) => Raised(f)
          case Done(cl) => Done((c1.(client := Some(cl)), Some(cl)))
    else Done((c, c.client))
  }

  /** `sign_out_keeping_session!`: every cached credential and the session
      user id are cleared; the rest of the session stays. */
  function SignOutKeepingSession(c: Ctx): (r: Ctx)
    ensures r.user.Unresolved? && r.token.None? && r.client.None? && SessionUserId(r).None?
    ensures forall k :: k in c.session && k != UserIdKey ==> k in r.session && r.session[k] == c.session[k]
    ensures forall k :: k in r.session && k != UserIdKey ==> k in c.session
  {
    Ctx(Unresolved, None, None, c.session[UserIdKey := None])
  }

  /** A well-formed bearer header: `Bearer`, one space, and a credential
      free of whitespace signs in with exactly the token that
      `find_with_valid_access_token` answers, and raises when it answers
      `nil`. */
  lemma BearerHeaderSignsIn(env: Env, c: Ctx, at: string)
    requires at != [] && forall i :: 0 <= i < |at| ==> !IsSpace(at[i])
    requires env.header == Some("Bearer" + " " + at)
    ensures FindWithValidAccessToken(env.tokens, at, env.now).None? ==> SignInFromToken(env, c) == Raised(InvalidAccessToken)
    ensures FindWithValidAccessToken(env.tokens, at, env.now).Some? ==>
      SignInFromToken(env, c) == Done(c.(token := FindWithValidAccessToken(env.tokens, at, env.now)))
  {
    SplitSchemeAndCredential("Bearer", at);
  }

  /** The scheme is matched case-sensitively: `bearer <credential>` is
      ignored, with no lookup and no error. */
  lemma LowerCaseSchemeIgnored(env: Env, c: Ctx, at: string)
    requires at != [] && forall i :: 0 <= i < |at| ==> !IsSpace(at[i])
    requires env.header == Some("bearer" + " " + at)
    ensures SignInFromToken(env, c) == Done(c)
  {
    SplitSchemeAndCredential("bearer", at);
  }

  /** A header holding the scheme alone, with or without a trailing space,
      offers the word `Bearer` itself as the credential, since the last
      part of the split is also the first. */
  lemma BareSchemeIsCredential(h: string)
    requires h == "Bearer" || h == "Bearer" + " "
    ensures BearerCredential(h) == Some("Bearer")
  {
    NoSpaceFields("Bearer");
    SplitTrailingSpace("Bearer");
    assert Split("Bearer") == DropTrailingEmpty(["Bearer"]);
  }

  /** The expiry is strict end to end: a request bearing a stored token's
      access token, no other token sharing it, signs in before the expiry
      and raises from the expiry instant on. */
  lemma BearerExpiry(env: Env, c: Ctx, t: Token)
    requires t in env.tokens && t.accessToken.Some? && t.expiresAt.Some?
    requires forall x :: x in env.tokens && x.accessToken == t.accessToken ==> x == t
    requires t.accessToken.value != [] && forall i :: 0 <= i < |t.accessToken.value| ==> !IsSpace(t.accessToken.value[i])
    requires env.header == Some("Bearer" + " " + t.accessToken.value)
    ensures env.now < t.expiresAt.value ==> SignInFromToken(env, c) == Done(c.(token := Some(t)))
    ensures env.now >= t.expiresAt.value ==> SignInFromToken(env, c) == Raised(InvalidAccessToken)
  {
    BearerHeaderSignsIn(env, c, t.accessToken.value);
    FindUnique(env.tokens, t, env.now);
  }

  /** The session wins: with `:session` enabled and a known user id in the
      session, that user is the current user and the header is never read,
      so even a header that would raise is ignored. */
  lemma SessionFirst(env: Env, c: Ctx, id: string)
    requires SessionAuth in env.methods && c.user.Unresolved?
    requires SessionUserId(c) == Some(id) && id in env.users
    ensures CurrentUser(env, c) == Done((SetCurrentUser(c, Some(id)), SignedInAs(id)))
    ensures CurrentUser(env, c).value.0.token == c.token
  {
  }

  /** Without a session user, the bearer token's owner becomes the current
      user, and the token is cached alongside. */
  lemma TokenFallback(env: Env, c: Ctx, t: Token)
    requires c.user.Unresolved? && c.token.None? && TokenAuth in env.methods
    requires SessionAuth !in env.methods || SessionUserId(c).None?
    requires env.header.Some? && BearerCredential(env.header.value).Some?
    requires FindWithValidAccessToken(env.tokens, BearerCredential(env.header.value).value, env.now) == Some(t)
    requires t.ownerId in env.users
    ensures CurrentUser(env, c) == Done((c.(token := Some(t), user := SignedInAs(t.ownerId)), SignedInAs(t.ownerId)))
  {
  }

  /** Assigning `nil` is sticky: afterwards `current_user` answers `false`
      for any request without a lookup, and `signed_in?` is false. */
  lemma NobodyIsSticky(env: Env, c: Ctx)
    ensures var c1 := SetCurrentUser(c, None);
      CurrentUser(env, c1) == Done((c1, Nobody)) && SignedIn(env, c1) == Done((c1, false))
  {
  }

  /** Assigning a user signs them in for the rest of the request, with no
      lookup, whatever the request carries. */
  lemma AssignedUserStays(env: Env, c: Ctx, id: string)
    ensures var c1 := SetCurrentUser(c, Some(id));
      CurrentUser(env, c1) == Done((c1, SignedInAs(id))) && SignedIn(env, c1) == Done((c1, true))
  {
  }

  /** Caching: asking `current_user` again in the state the first call
      left gives the same answer and changes nothing. */
  lemma {:induction false} CurrentUserCached(env: Env, c: Ctx)
    requires CurrentUser(env, c).Done?
    ensures var (c1, u) := CurrentUser(env, c).value;
      CurrentUser(env, c1) == Done((c1, u))
  {
    var (c1, u) := CurrentUser(env, c).value;
    if c1.user.Unresolved? {
      CurrentUserUnresolved(env, c);
    }
  }

  /** A `current_user` call that resolves nobody has consulted everything
      there was and leaves the state as a second call would find it. */
  lemma {:induction false} CurrentUserUnresolved(env: Env, c: Ctx)
    requires CurrentUser(env, c).Done? && CurrentUser(env, c).value.1.Unresolved?
    ensures var c1 := CurrentUser(env, c).value.0;
      c1.token.None? && c1.user == c.user && c1.session == c.session
      && (SessionAuth in env.methods ==> SessionUserId(c1).None?)
      && CurrentToken(env, c1) == Done((c1, None))
  {
    var o1 := if c.user.Unresolved? && SessionAuth in env.methods then SignInFromSession(env, c) else Done(c);
    assert o1 == Done(c);
  }

  /** With a token cached and uuids unique, `current_client` is the
      registered client whose uuid the token carries, and it is cached. */
  lemma CurrentClientOfToken(env: Env, c: Ctx, k: nat)
    requires c.client.None? && c.token.Some?
    requires UniqueUuids(env.clients) && k < |env.clients|
    requires env.clients[k].uuid.Some? && env.clients[k].uuid == c.token.value.clientId
    ensures CurrentClient(env, c) == Done((c.(client := Some(env.clients[k])), Some(env.clients[k])))
  {
    var id := c.token.value.clientId;
    assert HasUuid(env.clients[k], id);
  }

  /** After signing out, a request with no `Authorization` header is not
      signed in: the session no longer names a user and no token is cached. */
  lemma SignOutThenSignedIn(env: Env, c: Ctx)
    requires env.header.None?
    ensures var c1 := SignOutKeepingSession(c);
      SignedIn(env, c1) == Done((c1, false))
  {
  }
}

=== FILE: base.dfy ===
/** Shared vocabulary of the model: optional values, bytes and the random
    values the system draws, Ruby exceptions, and the JSON hashes that are
    rendered to API clients. */
module Base {

  /** Ruby's `nil`-or-value, as used for every nullable column and parameter. */
  datatype Option<+T> = None | Some(value: T) {
    function GetOr(default: T): T {
      match this
      case Some(v) => v
      case None => default
    }
  }

  newtype byte = x: int | 0 <= x < 256

  /** The 16 bytes behind one `SecureRandom.hex(16)` call. */
  type Random16 = s: seq<byte> | |s| == 16 witness seq(16, _ => 0 as byte)

  /** Exceptions the modelled code raises. `AuthError` is the only one the
      token endpoint rescues; the others escape to the host framework. */
  datatype Fault =
    | AuthError(data: Payload)
    | ArgumentError
    | NoMethodError
    | RecordNotFound
    | InvalidAccessToken
    | StatementInvalid

  /** The result of a Ruby call that either returns or raises. */
  datatype Outcome<+T> = Done(value: T) | Raised(fault: Fault)

  /** JSON leaves appearing in rendered hashes; times are rendered as their
      integer second, `nil` as null. */
  datatype Json = JStr(str: string) | JInt(num: int) | JNull

  /** A Ruby hash with symbol keys, rendered as a JSON object. */
  type Payload = map<string, Json>

  function StrOrNull(s: Option<string>): (j: Json)
    ensures s.None? <==> j == JNull
    ensures s.Some? ==> j == JStr(s.value)
  {
    match s
    case Some(v) => JStr(v)
    case None => JNull
  }

  function IntOrNull(t: Option<int>): (j: Json)
    ensures t.None? <==> j == JNull
    ensures t.Some? ==> j == JInt(t.value)
  {
    match t
    case Some(v) => JInt(v)
    case None => JNull
  }

  /** Index of the first element satisfying `p`: the record a query's
      `.first` returns when the store is kept in primary-key order. */
  function First<T>(s: seq<T>, p: T -> bool): (r: Option<nat>)
    ensures r.Some? ==> r.value < |s| && p(s[r.value])
    ensures r.Some? ==> forall j :: 0 <= j < r.value ==> !p(s[j])
    ensures r.None? <==> forall j :: 0 <= j < |s| ==> !p(s[j])
  {
    if s == [] then None
    else if p(s[0]) then Some(0)
    else
      match First(s[1..], p)
      case None => None
      case Some(i) => Some(i + 1)
  }
}

=== FILE: clients.dfy ===
/** The client registry: `QuickAuth::Client` (Mongoid and schema_sync
    fields) and `QuickAuth::ActiveRecord::Client`, whose class methods are
    the same code. */
module Clients {
  import opened Base
  import Hex

  /** `access_token_expires_in` column default, in seconds. */
  const DefaultExpiresIn: int := 3600

  /** `key` is the storage primary key used by `find`; `uuid` is the public
      identifier, absent on records that predate it. */
  datatype Client = Client(
    key: string,
    uuid: Option<string>,
    name: Option<string>,
    secret: Option<string>,
    accessTokenExpiresIn: Option<int>)

  /** A fresh, unsaved record: every column nil except the defaulted one. */
  function NewClient(key: string): (c: Client)
    ensures c.accessTokenExpiresIn == Some(DefaultExpiresIn)
    ensures c.uuid.None? && c.secret.None? && c.name.None?
  {
    Client(key, None, None, None, Some(DefaultExpiresIn))
  }

  /** `register(name)`: a fresh uuid (`uuid`, from `SecureRandom.uuid`), a
      secret of `SecureRandom.hex(16)`, the given name, appended to the
      store. No check that the name is unused. */
  function Register(clients: seq<Client>, name: Option<string>, key: string, uuid: string, entropy: Random16)
    : (r: (seq<Client>, Client))
    ensures r.0 == clients + [r.1]
    ensures r.1.name == name && r.1.uuid == Some(uuid) && r.1.key == key
    ensures r.1.secret.Some? && |r.1.secret.value| == 32
    ensures forall i :: 0 <= i < 32 ==> Hex.IsHexChar(r.1.secret.value[i])
    ensures r.1.accessTokenExpiresIn == Some(DefaultExpiresIn)
  {
    var c := NewClient(key).(uuid := Some(uuid), secret := Some(Hex.Hex16(entropy)), name := name);
    (clients + [c], c)
  }

  predicate HasUuid(c: Client, id: Option<string>) {
    c.uuid == id
  }

  predicate HasKey(c: Client, id: Option<string>) {
    id == Some(c.key)
  }

  /** `find_with_uuid(id)`: the first client whose uuid is `id`, else the
      primary-key lookup `find(id)`, which raises when nothing matches. */
  function FindWithUuid(clients: seq<Client>, id: Option<string>): (r: Outcome<Client>)
    ensures r.Done? ==> r.value in clients && (HasUuid(r.value, id) || HasKey(r.value, id))
    ensures (exists i :: 0 <= i < |clients| && HasUuid(clients[i], id)) ==> r.Done? && HasUuid(r.value, id)
    ensures r.Raised? <==> forall i :: 0 <= i < |clients| ==> !HasUuid(clients[i], id) && !HasKey(clients[i], id)
    ensures r.Raised? ==> r.fault == RecordNotFound
  {
    match First(clients, c => HasUuid(c, id))
    case Some(i) => Done(clients[i])
    case None =>
      match First(clients, c => HasKey(c, id))
      case Some(k) => Done(clients[k])
      case None => Raised(RecordNotFound)
  }

  /** `authenticate(id, secret)`: the client found for `id` when its secret
      equals `secret` exactly, `nil` when it differs; the lookup's
      not-found error propagates. */
  function Authenticate(clients: seq<Client>, id: Option<string>, secret: Option<string>): (r: Outcome<Option<Client>>)
    ensures r.Done? && r.value.Some? ==>
      r.value.value in clients && r.value.value.secret == secret
      && (HasUuid(r.value.value, id) || HasKey(r.value.value, id))
    ensures r.Done? <==> exists i :: 0 <= i < |clients| && (HasUuid(clients[i], id) || HasKey(clients[i], id))
    ensures r.Raised? ==> r.fault == RecordNotFound
    ensures FindWithUuid(clients, id).Done? && FindWithUuid(clients, id).value.secret == secret ==>
      r == Done(Some(FindWithUuid(clients, id).value))
    ensures FindWithUuid(clients, id).Done? && FindWithUuid(clients, id).value.secret != secret ==>
      r == Done(None)
  {
    match FindWithUuid(clients, id)
    case Raised(f) => Raised(f)
    case Done(c) => if c.secret == secret then Done(Some(c)) else Done(None)
  }

  predicate UniqueUuids(clients: seq<Client>) {
    forall i, j :: 0 <= i < j < |clients| && clients[i].uuid.Some? ==> clients[i].uuid != clients[j].uuid
  }

  /** Client authentication is exact: with unique uuids, a registered
      client's uuid authenticates with its own secret and with nothing else. */
  lemma AuthenticateExact(clients: seq<Client>, k: int, secret: Option<string>)
    requires UniqueUuids(clients)
    requires 0 <= k < |clients| && clients[k].uuid.Some?
    ensures Authenticate(clients, clients[k].uuid, secret) == Done(Some(clients[k])) <==> secret == clients[k].secret
    ensures secret != clients[k].secret ==> Authenticate(clients, clients[k].uuid, secret) == Done(None)
  {
    var id := clients[k].uuid;
    var found := First(clients, c => HasUuid(c, id));
    assert HasUuid(clients[k], id);
    assert found == Some(k);
  }

  /** Registering then authenticating with the returned uuid and secret
      yields the new client, provided the drawn uuid is new. */
  lemma RegisterThenAuthenticate(clients: seq<Client>, name: Option<string>, key: string, uuid: string, entropy: Random16)
    requires UniqueUuids(clients)
    requires forall i :: 0 <= i < |clients| ==> clients[i].uuid != Some(uuid)
    ensures var (cs, c) := Register(clients, name, key, uuid, entropy);
      UniqueUuids(cs)
      && Authenticate(cs, Some(uuid), c.secret) == Done(Some(c))
      && forall s :: s != c.secret ==> Authenticate(cs, Some(uuid), s) == Done(None)
  {
    var (cs, c) := Register(clients, name, key, uuid, entropy);
    assert cs[|clients|] == c;
    AuthenticateExact(cs, |clients|, c.secret);
    forall s {
      AuthenticateExact(cs, |clients|, s);
    }
  }
}

=== FILE: endpoints.dfy ===
/** `QuickAuth::OAuth2::Endpoints`: the `/token` action. A before-filter
    authenticates the client from the request parameters, then the action
    dispatches on `grant_type`. Protocol errors travel as `AuthError`, which
    the controller rescues into a 400 response carrying the error's data.

    The host's user model is a parameter: `userAuth(username, password)` is
    `QuickAuth.models[:user].authenticate`, answering the id of the user it
    accepts. The token model in force is a parameter too. */
module Endpoints {
  import opened Base
  import opened Clients
  import opened Tokens
  import ArTokens
  import LegacyTokens

  const Ok: int := 200
  const BadRequest: int := 400

  /** Which class plays the `:token` role. */
  datatype TokenModel = ActiveRecordTokens | LegacyTokenModel

  /** How the refresh handler calls `refresh_access_token`: as written, with
      the refresh token alone, or with the client as both back-ends expect. */
  datatype RefreshCall = RefreshTokenOnly | ClientAndRefreshToken

  datatype Env = Env(
    model: TokenModel,
    refreshCall: RefreshCall,
    userAuth: (Option<string>, Option<string>) -> Option<string>)

  /** The request parameters the action reads. */
  datatype Request = Request(
    clientId: Option<string>,
    clientSecret: Option<string>,
    grantType: Option<string>,
    username: Option<string>,
    password: Option<string>,
    scope: Option<string>,
    refreshToken: Option<string>)

  /** Fresh values for one request; each token model takes what it needs. */
  datatype Draws = Draws(first: Random16, second: Random16, third: Random16)

  /** What the controller renders: a JSON body with a status, or nothing. */
  datatype Response = Rendered(status: int, body: Payload) | NothingRendered

  /** The token store after the request, and the response. */
  datatype Reply = Reply(tokens: seq<Token>, response: Response)

  function ErrorBody(code: string): (p: Payload)
    ensures p.Keys == {"error"} && p["error"] == JStr(code)
  {
    map["error" := JStr(code)]
  }

  const InvalidClient: Payload := ErrorBody("invalid_client")
  const InvalidGrant: Payload := ErrorBody("invalid_grant")

  /** `params[:grant_type].to_s`: `nil` becomes the empty string. */
  function GrantType(req: Request): string {
    req.grantType.GetOr("")
  }

  /** `render_error(opts)`: never returns; raises `AuthError` with `opts`. */
  function RenderError<T>(data: Payload): (r: Outcome<T>)
    ensures r.Raised? && r.fault.AuthError? && r.fault.data == data
  {
    Raised(AuthError(data))
  }

  /** The `rescue_from AuthError` handler: an `AuthError` becomes a 400
      response with exactly its data; any other exception escapes, and a
      normal result passes through. */
  function Rescue(o: Outcome<Reply>, before: seq<Token>): (r: Outcome<Reply>)
    ensures o.Raised? && o.fault.AuthError? ==> r == Done(Reply(before, Rendered(BadRequest, o.fault.data)))
    ensures !(o.Raised? && o.fault.AuthError?) ==> r == o
  {
    match o
    case Raised(AuthError(data)) => Done(Reply(before, Rendered(BadRequest, data)))
    case _ => o
  }

  /** The `authenticate_client` before-filter: the client when id and secret
      match, `AuthError(invalid_client)` when the secret is wrong; a lookup
      that finds no client at all raises out of the filter unrescued. */
  function AuthenticateClient(clients: seq<Client>, req: Request): (r: Outcome<Client>)
    ensures r.Done? ==> r.value in clients && r.value.secret == req.clientSecret
    ensures r.Done? <==> Authenticate(clients, req.clientId, req.clientSecret).Done?
                         && Authenticate(clients, req.clientId, req.clientSecret).value.Some?
    ensures r == RenderError(InvalidClient) <==> Authenticate(clients, req.clientId, req.clientSecret) == Done(None)
    ensures r.Raised? && r.fault.RecordNotFound? <==> Authenticate(clients, req.clientId, req.clientSecret).Raised?
  {
    match Authenticate(clients, req.clientId, req.clientSecret)
    case Raised(f) => Raised(f)
    case Done(None) => RenderError(InvalidClient)
    case Done(Some(c)) => Done(c)
  }

  /** `generate(client, user, scope: scope)` of the model in force. */
  function GenerateToken(m: TokenModel, s: seq<Token>, client: Client, ownerId: string, scope: Option<string>,
                         now: int, dr: Draws): (r: (seq<Token>, Token))
    ensures r.1.clientId == client.uuid && r.1.ownerId == ownerId && r.1.scope == scope && r.1.createdAt == now
    ensures r.1.expiresAt.Some?
    ensures OtherTokens(r.0, client.uuid, ownerId) == OtherTokens(s, client.uuid, ownerId)
  {
    match m
    case ActiveRecordTokens => ArTokens.Generate(s, client, ownerId, scope, now, dr.first, dr.second)
    case LegacyTokenModel => LegacyTokens.Generate(s, client, ownerId, scope, now, dr.first, dr.second, dr.third)
  }

  /** `refresh_access_token(client, rt)` of the model in force. */
  function RefreshToken(m: TokenModel, s: seq<Token>, client: Client, rt: Option<string>, now: int, dr: Draws)
    : (r: (seq<Token>, Option<Token>))
    ensures r.1.None? <==> forall t :: t in s ==> !MatchesRefresh(t, client.uuid, rt)
    ensures r.1.None? ==> r.0 == s
    ensures r.1.Some? ==> r.1.value in r.0 && r.1.value.clientId == client.uuid && r.1.value.expiresAt.Some?
  {
    match m
    case ActiveRecordTokens =>
      ArTokens.Refresh(s, client, rt, now, dr.first)
    case LegacyTokenModel => LegacyTokens.Refresh(s, client, rt, now, dr.first, dr.second)
  }

  /** `to_api` of the model in force; both share the five bearer fields. */
  function TokenApi(m: TokenModel, t: Token, now: int): (r: Outcome<Payload>)
    ensures r.Raised? <==> t.expiresAt.None?
    ensures r.Done? ==> "token_type" in r.value && r.value["token_type"] == JStr("bearer")
    ensures r.Done? ==> "access_token" in r.value && r.value["access_token"] == StrOrNull(t.accessToken)
    ensures r.Done? ==> "refresh_token" in r.value && r.value["refresh_token"] == StrOrNull(t.refreshToken)
  {
    match m
    case ActiveRecordTokens => ArTokens.ToApi(t, now)
    case LegacyTokenModel => CorePayload(t, now)
  }

  /** `render_token(token)`: `render json: token.to_api`, status 200. */
  function RenderToken(m: TokenModel, s: seq<Token>, t: Token, now: int): (r: Outcome<Reply>)
    requires t.expiresAt.Some?
    ensures r.Done? && r.value.tokens == s
    ensures r.value.response == Rendered(Ok, TokenApi(m, t, now).value)
  {
    Done(Reply(s, Rendered(Ok, TokenApi(m, t, now).value)))
  }

  /** `handle_password_grant_token_request`: a token for the user the host
      model accepts, else `AuthError(invalid_grant)`. */
  function HandlePassword(env: Env, s: seq<Token>, client: Client, req: Request, now: int, dr: Draws)
    : (r: Outcome<Reply>)
    ensures env.userAuth(req.username, req.password).None? <==> r == RenderError(InvalidGrant)
    ensures env.userAuth(req.username, req.password).Some? ==>
      var (s', t) := GenerateToken(env.model, s, client, env.userAuth(req.username, req.password).value, req.scope, now, dr);
      r == Done(Reply(s', Rendered(Ok, TokenApi(env.model, t, now).value)))
  {
    match env.userAuth(req.username, req.password)
    case None => RenderError(InvalidGrant)
    case Some(uid) =>
      var (s', t) := GenerateToken(env.model, s, client, uid, req.scope, now, dr);
      RenderToken(env.model, s', t, now)
  }

  /** `handle_refresh_token_request` as written: `refresh_access_token` is
      handed the refresh token alone, and both back-ends declare two
      parameters, so the call raises `ArgumentError` before any lookup. */
  function HandleRefreshAsWritten(s: seq<Token>, req: Request): (r: Outcome<Reply>)
    ensures r.Raised? && r.fault == ArgumentError
  {
    Raised(ArgumentError)
  }

  /** The reply is a 200 rendering the `to_api` of some token of client
      `cid`, one whose expiry is set. */
  ghost predicate IssuedToken(m: TokenModel, rep: Reply, cid: Option<string>, now: int) {
    exists t: Token :: t.clientId == cid && t.expiresAt.Some? && rep.response == Rendered(Ok, TokenApi(m, t, now).value)
  }

  /** The refresh handler with the client passed along: the refreshed token
      is rendered, and an unknown refresh token is `invalid_grant`. */
  function HandleRefresh(m: TokenModel, s: seq<Token>, client: Client, req: Request, now: int, dr: Draws)
    : (r: Outcome<Reply>)
    ensures (forall t :: t in s ==> !MatchesRefresh(t, client.uuid, req.refreshToken)) <==> r == RenderError(InvalidGrant)
    ensures r.Done? ==> IssuedToken(m, r.value, client.uuid, now)
    ensures (exists t :: t in s && MatchesRefresh(t, client.uuid, req.refreshToken)) ==>
      && r.Done?
      && r.value.tokens == RefreshToken(m, s, client, req.refreshToken, now, dr).0
      && r.value.response.Rendered? && r.value.response.status == Ok
  {
    var (s', found) := RefreshToken(m, s, client, req.refreshToken, now, dr);
    match found
    case None => RenderError(InvalidGrant)
    case Some(t) => RenderToken(m, s', t, now)
  }

  /** The `token` action after the filter: `case` on the grant type, with
      no branch for any other value, so nothing is rendered then. */
  function Dispatch(env: Env, s: seq<Token>, client: Client, req: Request, now: int, dr: Draws): (r: Outcome<Reply>)
    ensures GrantType(req) == "password" ==> r == HandlePassword(env, s, client, req, now, dr)
    ensures GrantType(req) == "refresh_token" && env.refreshCall == RefreshTokenOnly ==> r == HandleRefreshAsWritten(s, req)
    ensures GrantType(req) == "refresh_token" && env.refreshCall == ClientAndRefreshToken ==>
      r == HandleRefresh(env.model, s, client, req, now, dr)
    ensures GrantType(req) != "password" && GrantType(req) != "refresh_token" ==> r == Done(Reply(s, NothingRendered))
  {
    var gt := GrantType(req);
    if gt == "password" then HandlePassword(env, s, client, req, now, dr)
    else if gt == "refresh_token" then
      match env.refreshCall
      case RefreshTokenOnly => HandleRefreshAsWritten(s, req)
      case ClientAndRefreshToken => HandleRefresh(env.model, s, client, req, now, dr)
    else Done(Reply(s, NothingRendered))
  }

  /** One request to the token endpoint: filter, action, rescue. */
  function TokenEndpoint(env: Env, clients: seq<Client>, s: seq<Token>, req: Request, now: int, dr: Draws)
    : (r: Outcome<Reply>)
  {
    var action :=
      match AuthenticateClient(clients, req)
      case Raised(f) => Raised(f)
      case Done(c) => Dispatch(env, s, c, req, now, dr);
    Rescue(action, s)
  }

  /** Client authentication comes first: a wrong secret answers 400
      `invalid_client` whatever the grant type and the other parameters,
      and an unknown client id escapes as `RecordNotFound`. */
  lemma ClientFailsFirst(env: Env, clients: seq<Client>, s: seq<Token>, req: Request, now: int, dr: Draws)
    ensures Authenticate(clients, req.clientId, req.clientSecret) == Done(None) ==>
      TokenEndpoint(env, clients, s, req, now, dr) == Done(Reply(s, Rendered(BadRequest, InvalidClient)))
    ensures Authenticate(clients, req.clientId, req.clientSecret).Raised? ==>
      TokenEndpoint(env, clients, s, req, now, dr) == Raised(RecordNotFound)
  {
  }

  /** What the action can end in once the client is authenticated: a
      token of that client, `invalid_grant`, the refresh call's
      `ArgumentError`, or nothing rendered with nothing written. */
  lemma DispatchOutcome(env: Env, s: seq<Token>, c: Client, req: Request, now: int, dr: Draws)
    ensures var r := Dispatch(env, s, c, req, now, dr);
      r.Raised? ==> r.fault == ArgumentError || r.fault == AuthError(InvalidGrant)
    ensures var r := Dispatch(env, s, c, req, now, dr);
      r.Done? ==> r.value == Reply(s, NothingRendered) || IssuedToken(env.model, r.value, c.uuid, now)
  {
    if GrantType(req) == "password" {
      var r := HandlePassword(env, s, c, req, now, dr);
      if r.Done? {
        var (s', t) := GenerateToken(env.model, s, c, env.userAuth(req.username, req.password).value, req.scope, now, dr);
        assert t.clientId == c.uuid && t.expiresAt.Some? && r.value.response == Rendered(Ok, TokenApi(env.model, t, now).value);
      }
    }
  }

  /** Every request ends in exactly one way: an escaped exception, a 200
      rendering a token of the authenticated client, a 400 carrying one of
      the two error codes with the store untouched, or, for an unsupported
      grant type, nothing rendered and nothing written. */
  lemma {:induction false} SingleOutcome(env: Env, clients: seq<Client>, s: seq<Token>, req: Request, now: int, dr: Draws)
    ensures var r := TokenEndpoint(env, clients, s, req, now, dr);
      r.Raised? ==> r.fault == RecordNotFound || r.fault == ArgumentError
    ensures var r := TokenEndpoint(env, clients, s, req, now, dr);
      r.Done? ==>
        || r.value == Reply(s, Rendered(BadRequest, InvalidClient))
        || r.value == Reply(s, Rendered(BadRequest, InvalidGrant))
        || r.value == Reply(s, NothingRendered)
        || (AuthenticateClient(clients, req).Done?
            && IssuedToken(env.model, r.value, AuthenticateClient(clients, req).value.uuid, now))
    ensures var r := TokenEndpoint(env, clients, s, req, now, dr);
      r.Done? && r.value.response.NothingRendered? <==>
        && AuthenticateClient(clients, req).Done?
        && GrantType(req) != "password" && GrantType(req) != "refresh_token"
  {
    match AuthenticateClient(clients, req)
    case Raised(f) =>
    case Done(c) =>
      DispatchOutcome(env, s, c, req, now, dr);
  }

  /** Password grant, end to end: an authenticated client and an accepted
      user get the generated token's `to_api` with status 200; a refused
      user gets 400 `invalid_grant` and no token is stored. */
  lemma PasswordGrant(env: Env, clients: seq<Client>, s: seq<Token>, req: Request, now: int, dr: Draws, c: Client)
    requires Authenticate(clients, req.clientId, req.clientSecret) == Done(Some(c))
    requires GrantType(req) == "password"
    ensures env.userAuth(req.username, req.password).None? ==>
      TokenEndpoint(env, clients, s, req, now, dr) == Done(Reply(s, Rendered(BadRequest, InvalidGrant)))
    ensures env.userAuth(req.username, req.password).Some? ==>
      var (s', t) := GenerateToken(env.model, s, c, env.userAuth(req.username, req.password).value, req.scope, now, dr);
      && TokenEndpoint(env, clients, s, req, now, dr) == Done(Reply(s', Rendered(Ok, TokenApi(env.model, t, now).value)))
      && t.clientId == c.uuid && t.ownerId == env.userAuth(req.username, req.password).value
  {
  }

  /** As written, a refresh-token request from an authenticated client never
      gets a token: the handler's call raises `ArgumentError`, which the
      controller does not rescue, even when the store holds a token of that
      client with exactly that refresh token. */
  lemma RefreshAsWrittenFails(env: Env, clients: seq<Client>, s: seq<Token>, req: Request, now: int, dr: Draws, c: Client)
    requires env.refreshCall == RefreshTokenOnly
    requires Authenticate(clients, req.clientId, req.clientSecret) == Done(Some(c))
    requires GrantType(req) == "refresh_token"
    ensures TokenEndpoint(env, clients, s, req, now, dr) == Raised(ArgumentError)
  {
  }

  /** With the client passed along, a refresh request renders the refreshed
      token when the client holds that refresh token, and answers 400
      `invalid_grant` with the store untouched when it does not. */
  lemma RefreshWithClient(env: Env, clients: seq<Client>, s: seq<Token>, req: Request, now: int, dr: Draws, c: Client)
    requires env.refreshCall == ClientAndRefreshToken
    requires Authenticate(clients, req.clientId, req.clientSecret) == Done(Some(c))
    requires GrantType(req) == "refresh_token"
    ensures (exists t :: t in s && MatchesRefresh(t, c.uuid, req.refreshToken)) ==>
      var (s', t) := RefreshToken(env.model, s, c, req.refreshToken, now, dr);
      TokenEndpoint(env, clients, s, req, now, dr) == Done(Reply(s', Rendered(Ok, TokenApi(env.model, t.value, now).value)))
    ensures (forall t :: t in s ==> !MatchesRefresh(t, c.uuid, req.refreshToken)) ==>
      TokenEndpoint(env, clients, s, req, now, dr) == Done(Reply(s, Rendered(BadRequest, InvalidGrant)))
  {
  }
}

=== FILE: grants.dfy ===
/** Authorization grants: `QuickAuth::Grant` (Mongoid and schema_sync
    scopes) and `QuickAuth::ActiveRecord::Grant`. A grant's code is good for
    ten minutes after it is created. */
module Grants {
  import opened Base
  import Hex
  import opened Clients

  /** `10.minutes`, in seconds. */
  const Window: int := 600

  /** Which query scopes are in force: the Mongoid ones compare with
      `$lt`/`$gte`, the schema_sync and ActiveRecord ones with `<`/`>`. */
  datatype Backend = Mongoid | SchemaSync

  datatype Grant = Grant(
    clientId: Option<string>,
    ownerId: string,
    code: Option<string>,
    scope: Option<string>,
    createdAt: int)

  predicate OfPair(g: Grant, cid: Option<string>, oid: string) {
    g.clientId == cid && g.ownerId == oid
  }

  /** `expired?`, and the `expired` scope of every back-end: created
      strictly before `now - 10 minutes`. */
  predicate IsExpired(g: Grant, now: int) {
    g.createdAt < now - Window
  }

  /** The `not_expired` scope: `>=` on Mongoid, `>` elsewhere. */
  predicate NotExpired(b: Backend, g: Grant, now: int) {
    match b
    case Mongoid => g.createdAt >= now - Window
    case SchemaSync => g.createdAt > now - Window
  }

  /** On Mongoid the two scopes split every grant: each is in exactly one. */
  lemma MongoidScopesPartition(g: Grant, now: int)
    ensures IsExpired(g, now) <==> !NotExpired(Mongoid, g, now)
  {
  }

  /** On schema_sync the scopes never overlap, but a grant created exactly
      ten minutes ago is in neither. */
  lemma SchemaSyncScopesGap(g: Grant, now: int)
    ensures !(IsExpired(g, now) && NotExpired(SchemaSync, g, now))
    ensures !IsExpired(g, now) && !NotExpired(SchemaSync, g, now) <==> g.createdAt == now - Window
  {
  }

  /** `clean_grants(client, user)`: delete the pair's expired grants. */
  function CleanGrants(s: seq<Grant>, cid: Option<string>, oid: string, now: int): (r: seq<Grant>)
    ensures forall g :: g in r <==> g in s && !(OfPair(g, cid, oid) && IsExpired(g, now))
    ensures |r| <= |s|
  {
    if s == [] then []
    else
      var rest := CleanGrants(s[1..], cid, oid, now);
      assert forall g :: g in s <==> g == s[0] || g in s[1..];
      if OfPair(s[0], cid, oid) && IsExpired(s[0], now) then rest else [s[0]] + rest
  }

  /** Cleaning twice at the same instant deletes nothing more. */
  lemma {:induction false} CleanGrantsIdempotent(s: seq<Grant>, cid: Option<string>, oid: string, now: int)
    ensures CleanGrants(CleanGrants(s, cid, oid, now), cid, oid, now) == CleanGrants(s, cid, oid, now)
  {
    if s != [] {
      var rest := CleanGrants(s[1..], cid, oid, now);
      CleanGrantsIdempotent(s[1..], cid, oid, now);
      if !(OfPair(s[0], cid, oid) && IsExpired(s[0], now)) {
        var r := [s[0]] + rest;
        assert r[0] == s[0] && r[1..] == rest;
      }
    }
  }

  /** When none of the pair's grants has expired, cleaning changes nothing:
      other pairs' grants are never touched. */
  lemma {:induction false} CleanGrantsKeepsUnexpired(s: seq<Grant>, cid: Option<string>, oid: string, now: int)
    requires forall g :: g in s && OfPair(g, cid, oid) ==> !IsExpired(g, now)
    ensures CleanGrants(s, cid, oid, now) == s
  {
    if s != [] {
      CleanGrantsKeepsUnexpired(s[1..], cid, oid, now);
      assert s == [s[0]] + s[1..];
    }
  }

  /** `generate(client, user, scope: scope)`: a grant with a fresh code,
      saved at `now`, followed by `clean_grants` for the pair. */
  function Generate(s: seq<Grant>, client: Client, ownerId: string, scope: Option<string>, now: int, draw: Random16)
    : (r: (seq<Grant>, Grant))
    ensures r.1 == Grant(client.uuid, ownerId, Some(Hex.Hex16(draw)), scope, now)
    ensures r.1 in r.0
    ensures forall g :: g in r.0 <==> g == r.1 || (g in s && !(OfPair(g, client.uuid, ownerId) && IsExpired(g, now)))
  {
    var g := Grant(client.uuid, ownerId, Some(Hex.Hex16(draw)), scope, now);
    (CleanGrants(s + [g], client.uuid, ownerId, now), g)
  }

  /** `with_client(cid).with_code(code).not_expired` admits `g`. */
  predicate Redeemable(b: Backend, g: Grant, cid: Option<string>, code: Option<string>, now: int) {
    g.clientId == cid && g.code == code && NotExpired(b, g, now)
  }

  /** `find_with_code_for_client(client, code)`: the first grant of the
      client with that code that the back-end's `not_expired` admits. */
  function FindWithCodeForClient(b: Backend, s: seq<Grant>, client: Client, code: Option<string>, now: int)
    : (r: Option<Grant>)
    ensures r.Some? ==> r.value in s && r.value.clientId == client.uuid && r.value.code == code
    ensures r.Some? ==> NotExpired(b, r.value, now)
    ensures r.None? <==> forall g :: g in s && g.clientId == client.uuid && g.code == code ==> !NotExpired(b, g, now)
  {
    match First(s, g => Redeemable(b, g, client.uuid, code, now))
    case None => None
    case Some(i) => Some(s[i])
  }

  /** A grant whose code no other grant of its client shares is found
      exactly while the back-end's `not_expired` admits it. */
  lemma FindUnique(b: Backend, s: seq<Grant>, client: Client, g: Grant, now: int)
    requires g in s && g.clientId == client.uuid
    requires forall x :: x in s && x.clientId == client.uuid && x.code == g.code ==> x == g
    ensures FindWithCodeForClient(b, s, client, g.code, now) == if NotExpired(b, g, now) then Some(g) else None
  {
    var r := FindWithCodeForClient(b, s, client, g.code, now);
    if NotExpired(b, g, now) {
      assert r.Some?;
    }
  }

  /** The ten-minute window: a uniquely coded grant is redeemable `d`
      seconds after creation when `d < 600`, not when `d > 600`, and at
      exactly 600 seconds only on Mongoid. */
  lemma {:induction false} RedeemWindow(b: Backend, s: seq<Grant>, client: Client, g: Grant, d: int)
    requires g in s && g.clientId == client.uuid
    requires forall x :: x in s && x.clientId == client.uuid && x.code == g.code ==> x == g
    ensures d < Window ==> FindWithCodeForClient(b, s, client, g.code, g.createdAt + d) == Some(g)
    ensures d > Window ==> FindWithCodeForClient(b, s, client, g.code, g.createdAt + d) == None
    ensures d == Window ==> (FindWithCodeForClient(b, s, client, g.code, g.createdAt + d) == Some(g) <==> b == Mongoid)
  {
    FindUnique(b, s, client, g, g.createdAt + d);
  }

  /** Generate-then-redeem: when no stored grant of the client has the drawn
      code, the new grant is found by its code on every back-end until ten
      minutes have passed. */
  lemma {:induction false} GenerateThenRedeem(b: Backend, s: seq<Grant>, client: Client, ownerId: string,
                                              scope: Option<string>, now: int, draw: Random16, d: int)
    requires forall x :: x in s && x.clientId == client.uuid ==> x.code != Some(Hex.Hex16(draw))
    requires 0 <= d < Window
    ensures var (s', g) := Generate(s, client, ownerId, scope, now, draw);
      FindWithCodeForClient(b, s', client, g.code, now + d) == Some(g)
  {
    var (s', g) := Generate(s, client, ownerId, scope, now, draw);
    RedeemWindow(b, s', client, g, d);
  }

  /** `to_api`: exactly the code and the scope. */
  function ToApi(g: Grant): (r: Payload)
    ensures r.Keys == {"code", "scope"}
    ensures r["code"] == StrOrNull(g.code) && r["scope"] == StrOrNull(g.scope)
  {
    map["code" := StrOrNull(g.code), "scope" := StrOrNull(g.scope)]
  }

  /** What a client receives for a new grant: the drawn code, as 32
      lower-case hex characters that decode back to the draw. */
  lemma GeneratedApi(s: seq<Grant>, client: Client, ownerId: string, scope: Option<string>, now: int, draw: Random16)
    ensures var p := ToApi(Generate(s, client, ownerId, scope, now, draw).1);
      && p["code"].JStr? && |p["code"].str| == 32
      && Hex.Decode(p["code"].str) == Some(draw)
      && p["scope"] == StrOrNull(scope)
  {
  }
}

=== FILE: hex.dfy ===
/** Lower-case hexadecimal encoding, the format of every identifier and
    secret the engine draws with `SecureRandom.hex(16)`. */
module Hex {
  import opened Base

  predicate IsHexChar(c: char) {
    '0' <= c <= '9' || 'a' <= c <= 'f'
  }

  function Digit(n: int): (c: char)
    requires 0 <= n < 16
    ensures IsHexChar(c)
  {
    if n < 10 then (48 + n) as char else (87 + n) as char
  }

  function DigitValue(c: char): (n: int)
    requires IsHexChar(c)
    ensures 0 <= n < 16
    ensures Digit(n) == c
  {
    if c <= '9' then c as int - 48 else c as int - 87
  }

  lemma DigitInverse(n: int)
    requires 0 <= n < 16
    ensures DigitValue(Digit(n)) == n
  {
  }

  /** Two characters per byte, high nibble first. */
  function Encode(bs: seq<byte>): (r: string)
    ensures |r| == 2 * |bs|
    ensures forall i :: 0 <= i < |r| ==> IsHexChar(r[i])
  {
    if bs == [] then []
    else [Digit(bs[0] as int / 16), Digit(bs[0] as int % 16)] + Encode(bs[1..])
  }

  /** The inverse of `Encode`; `None` for odd lengths and non-hex characters. */
  function Decode(s: string): (r: Option<seq<byte>>)
    ensures r.Some? ==> |s| == 2 * |r.value|
    decreases |s|
  {
    if s == [] then Some([])
    else if |s| == 1 || !IsHexChar(s[0]) || !IsHexChar(s[1]) then None
    else
      match Decode(s[2..])
      case None => None
      case Some(rest) => Some([(DigitValue(s[0]) * 16 + DigitValue(s[1])) as byte] + rest)
  }

  lemma {:induction false} DecodeEncode(bs: seq<byte>)
    ensures Decode(Encode(bs)) == Some(bs)
  {
    if bs != [] {
      var b := bs[0] as int;
      var e := Encode(bs);
      assert e[2..] == Encode(bs[1..]);
      DecodeEncode(bs[1..]);
      DigitInverse(b / 16);
      DigitInverse(b % 16);
      assert [(DigitValue(e[0]) * 16 + DigitValue(e[1])) as byte] + bs[1..] == bs;
    }
  }

  /** Distinct random bytes give distinct hex strings. */
  lemma EncodeInjective(a: seq<byte>, b: seq<byte>)
    requires Encode(a) == Encode(b)
    ensures a == b
  {
    DecodeEncode(a);
    DecodeEncode(b);
  }

  /** `SecureRandom.hex(16)`: 32 lower-case hexadecimal characters. */
  function Hex16(r: Random16): (s: string)
    ensures |s| == 32
    ensures forall i :: 0 <= i < |s| ==> IsHexChar(s[i])
    ensures Decode(s) == Some(r)
  {
    DecodeEncode(r);
    Encode(r)
  }
}

=== FILE: legacy_tokens.dfy ===
/** `QuickAuth::Token`, the Mongoid-era back-end: every refresh re-issues
    both the access token and the refresh token, for a fixed hour. */
module LegacyTokens {
  import opened Base
  import Hex
  import opened Clients
  import opened Tokens

  /** `1.hour`, the only lifetime this back-end issues. */
  const Lifetime: int := 3600

  /** `refresh_access_token!`: unconditionally a new access token, a new
      refresh token and an expiry one hour from `now`. */
  function Rotate(t: Token, now: int, accessDraw: Random16, refreshDraw: Random16): (r: Token)
    ensures r.accessToken == Some(Hex.Hex16(accessDraw))
    ensures r.refreshToken == Some(Hex.Hex16(refreshDraw))
    ensures r.expiresAt == Some(now + Lifetime)
    ensures r.clientId == t.clientId && r.ownerId == t.ownerId && r.scope == t.scope && r.createdAt == t.createdAt
    ensures AccessTokenValid(r, now) && !AccessTokenValid(r, now + Lifetime)
  {
    t.(accessToken := Some(Hex.Hex16(accessDraw)), refreshToken := Some(Hex.Hex16(refreshDraw)),
       expiresAt := Some(now + Lifetime))
  }

  /** `generate(client, user, scope: scope)`: the refresh token drawn first
      is overwritten at once by the rotation, which draws twice more; the
      client's own lifetime is ignored. The token is saved at `now`, then
      `clean_tokens` runs for the pair. */
  function Generate(s: seq<Token>, client: Client, ownerId: string, scope: Option<string>, now: int,
                    firstDraw: Random16, accessDraw: Random16, refreshDraw: Random16): (r: (seq<Token>, Token))
    ensures r.1.clientId == client.uuid && r.1.ownerId == ownerId && r.1.scope == scope && r.1.createdAt == now
    ensures r.1.accessToken == Some(Hex.Hex16(accessDraw))
    ensures r.1.refreshToken == Some(Hex.Hex16(refreshDraw))
    ensures r.1.expiresAt == Some(now + Lifetime)
    ensures OtherTokens(r.0, client.uuid, ownerId) == OtherTokens(s, client.uuid, ownerId)
    ensures forall x :: x in r.0 ==> x in s || x == r.1
  {
    var unsaved := Token(client.uuid, ownerId, None, Some(Hex.Hex16(firstDraw)), None, scope, now);
    var t := Rotate(unsaved, now, accessDraw, refreshDraw);
    var s1 := s + [t];
    CleanTokensSubset(s1, client.uuid, ownerId);
    OtherConcat(s, [t], client.uuid, ownerId);
    assert OtherTokens([t], client.uuid, ownerId) == [];
    (CleanTokens(s1, client.uuid, ownerId), t)
  }

  /** The first draw of `generate` is lost: the outcome does not depend on
      it, nor on the client's configured lifetime. */
  lemma GenerateIgnoresFirstDraw(s: seq<Token>, client: Client, ownerId: string, scope: Option<string>, now: int,
                                 d1: Random16, d2: Random16, a: Random16, b: Random16, life: Option<int>)
    ensures Generate(s, client, ownerId, scope, now, d1, a, b)
         == Generate(s, client.(accessTokenExpiresIn := life), ownerId, scope, now, d2, a, b)
  {
  }

  /** With a clock that never runs backwards the generated token survives
      the sweep, stored last, and the pair keeps at most 30 tokens. */
  lemma {:induction false} GenerateStores(s: seq<Token>, client: Client, ownerId: string, scope: Option<string>, now: int,
                                          d: Random16, a: Random16, b: Random16)
    requires forall x :: x in s ==> x.createdAt <= now
    ensures var (s', t) := Generate(s, client, ownerId, scope, now, d, a, b);
      && NewestLast(s', client.uuid, ownerId, t)
      && |PairTokens(s', client.uuid, ownerId)| == Min(|PairTokens(s, client.uuid, ownerId)| + 1, Retained)
  {
    var (s', t) := Generate(s, client, ownerId, scope, now, d, a, b);
    AppendNewestSurvives(s, t, now);
    CleanTokensCount(s + [t], client.uuid, ownerId);
    PairConcat(s, [t], client.uuid, ownerId);
    assert PairTokens([t], client.uuid, ownerId) == [t];
  }

  /** Generate-then-authenticate: when no stored token carries the drawn
      access token, the bearer lookup at the same instant finds exactly the
      generated token. */
  lemma {:induction false} GenerateThenFind(s: seq<Token>, client: Client, ownerId: string, scope: Option<string>, now: int,
                                            d: Random16, a: Random16, b: Random16)
    requires forall x :: x in s ==> x.createdAt <= now
    requires forall x :: x in s ==> x.accessToken != Some(Hex.Hex16(a))
    ensures var (s', t) := Generate(s, client, ownerId, scope, now, d, a, b);
      FindWithValidAccessToken(s', Hex.Hex16(a), now) == Some(t)
  {
    var (s', t) := Generate(s, client, ownerId, scope, now, d, a, b);
    GenerateStores(s, client, ownerId, scope, now, d, a, b);
    assert t in s' by {
      assert s'[|s'| - 1] == t;
    }
    FindUnique(s', t, now);
  }

  /** `to_api` of a newly generated token: bearer, one hour, the two tokens
      the rotation drew, and the requested scope. */
  lemma GeneratedApi(s: seq<Token>, client: Client, ownerId: string, scope: Option<string>, now: int,
                     d: Random16, a: Random16, b: Random16)
    ensures CorePayload(Generate(s, client, ownerId, scope, now, d, a, b).1, now)
         == Done(map[
              "access_token" := JStr(Hex.Hex16(a)),
              "token_type" := JStr("bearer"),
              "expires_in" := JInt(Lifetime),
              "refresh_token" := JStr(Hex.Hex16(b)),
              "scope" := StrOrNull(scope)])
  {
  }

  /** `clean_tokens` as written on this back-end:
      `oldest_first.limit(count - 30).delete_all`. Mongoid's `delete_all`
      sends one `delete_many` over the criteria's filter and does not apply
      the limit, so a pair holding more than 30 tokens loses all of them. */
  function CleanTokensAsWritten(s: seq<Token>, cid: Option<string>, oid: string): (r: seq<Token>)
    ensures |PairTokens(s, cid, oid)| > Retained ==> PairTokens(r, cid, oid) == []
    ensures |PairTokens(s, cid, oid)| <= Retained ==> r == s
    ensures OtherTokens(r, cid, oid) == OtherTokens(s, cid, oid)
  {
    OtherTokensOfOthers(s, cid, oid);
    if |PairTokens(s, cid, oid)| > Retained then OtherTokens(s, cid, oid) else s
  }

  /** `generate` followed by the as-written sweep: the same token is saved,
      and below 30 stored tokens the outcome is the intended one; from 30
      on, the sweep empties the pair. */
  function GenerateAsWritten(s: seq<Token>, client: Client, ownerId: string, scope: Option<string>, now: int,
                             firstDraw: Random16, accessDraw: Random16, refreshDraw: Random16): (r: (seq<Token>, Token))
    ensures r.1 == Generate(s, client, ownerId, scope, now, firstDraw, accessDraw, refreshDraw).1
    ensures OtherTokens(r.0, client.uuid, ownerId) == OtherTokens(s, client.uuid, ownerId)
    ensures |PairTokens(s, client.uuid, ownerId)| >= Retained ==> PairTokens(r.0, client.uuid, ownerId) == []
    ensures |PairTokens(s, client.uuid, ownerId)| < Retained ==>
      r == Generate(s, client, ownerId, scope, now, firstDraw, accessDraw, refreshDraw)
  {
    var t := Generate(s, client, ownerId, scope, now, firstDraw, accessDraw, refreshDraw).1;
    PairConcat(s, [t], client.uuid, ownerId);
    OtherConcat(s, [t], client.uuid, ownerId);
    assert PairTokens([t], client.uuid, ownerId) == [t];
    assert OtherTokens([t], client.uuid, ownerId) == [];
    (CleanTokensAsWritten(s + [t], client.uuid, ownerId), t)
  }

  /** The as-written sweep deletes the token `generate` has just issued once
      the pair already holds 30: its access token is then unknown, whereas
      `GenerateThenFind` finds it under the intended sweep. */
  lemma {:induction false} GenerateAsWrittenLosesToken(s: seq<Token>, client: Client, ownerId: string,
                                                       scope: Option<string>, now: int, d: Random16, a: Random16, b: Random16)
    requires |PairTokens(s, client.uuid, ownerId)| >= Retained
    requires forall x :: x in s ==> x.accessToken != Some(Hex.Hex16(a))
    ensures var (s', t) := GenerateAsWritten(s, client, ownerId, scope, now, d, a, b);
      t !in s' && FindWithValidAccessToken(s', Hex.Hex16(a), now).None?
  {
    var (s', t) := GenerateAsWritten(s, client, ownerId, scope, now, d, a, b);
    PairMember(s', client.uuid, ownerId, t);
    Partition(s', client.uuid, ownerId);
    Partition(s, client.uuid, ownerId);
    forall x | x in s' ensures x.accessToken != Some(Hex.Hex16(a)) {
      assert x in multiset(s');
      assert x in multiset(OtherTokens(s, client.uuid, ownerId));
      assert x in multiset(s);
    }
  }

  /** `refresh_access_token(client, rt)`: the first token of the client
      carrying `rt`, fully rotated and saved in place; `nil` and no change
      when none matches. */
  function Refresh(s: seq<Token>, client: Client, rt: Option<string>, now: int, accessDraw: Random16, refreshDraw: Random16)
    : (r: (seq<Token>, Option<Token>))
    ensures |r.0| == |s|
    ensures r.1.None? <==> forall t :: t in s ==> !MatchesRefresh(t, client.uuid, rt)
    ensures r.1.None? ==> r.0 == s
    ensures r.1.Some? ==> r.1.value in r.0 && r.1.value.clientId == client.uuid
    ensures r.1.Some? ==> r.1.value.refreshToken == Some(Hex.Hex16(refreshDraw))
    ensures r.1.Some? ==>
      r.1.value.accessToken == Some(Hex.Hex16(accessDraw)) && r.1.value.expiresAt == Some(now + Lifetime)
    ensures forall x :: x in r.0 ==> x in s || Some(x) == r.1
    ensures forall i :: FirstRefresh(s, client.uuid, rt, i) ==>
      r.1 == Some(Rotate(s[i], now, accessDraw, refreshDraw)) && r.0 == s[i := r.1.value]
  {
    match First(s, t => MatchesRefresh(t, client.uuid, rt))
    case None => (s, None)
    case Some(i) =>
      assert forall k :: FirstRefresh(s, client.uuid, rt, k) ==> k == i;
      var t := Rotate(s[i], now, accessDraw, refreshDraw);
      var s' := Replace(s, i, t);
      assert s'[i] == t;
      (s', Some(t))
  }

  /** At most one token of the client carries `rt`. */
  predicate UniqueRefresh(s: seq<Token>, cid: Option<string>, rt: Option<string>) {
    forall i, j :: 0 <= i < |s| && 0 <= j < |s| && MatchesRefresh(s[i], cid, rt) && MatchesRefresh(s[j], cid, rt) ==> i == j
  }

  /** Refresh tokens are single-use: once a refresh succeeds and draws a
      different refresh token, the old one is rejected from then on. */
  lemma RefreshSingleUse(s: seq<Token>, client: Client, rt: Option<string>, now: int, a: Random16, b: Random16,
                         later: int, c: Random16, d: Random16)
    requires UniqueRefresh(s, client.uuid, rt)
    requires rt != Some(Hex.Hex16(b))
    ensures var s1 := Refresh(s, client, rt, now, a, b).0;
      Refresh(s1, client, rt, later, c, d).1.None?
  {
    var s1 := Refresh(s, client, rt, now, a, b).0;
    match First(s, t => MatchesRefresh(t, client.uuid, rt))
    case None =>
    case Some(i) =>
      forall x | x in s1 ensures !MatchesRefresh(x, client.uuid, rt) {
        var j :| 0 <= j < |s1| && s1[j] == x;
        if j != i {
          assert s1[j] == s[j];
        }
      }
  }

  /** Refresh-then-authenticate: the newly issued access token, when no
      stored token already carries it, is accepted for the next hour and
      rejected from then on. */
  lemma RefreshThenFind(s: seq<Token>, client: Client, rt: Option<string>, now: int, a: Random16, b: Random16, at: int)
    requires Refresh(s, client, rt, now, a, b).1.Some?
    requires forall x :: x in s ==> x.accessToken != Some(Hex.Hex16(a))
    ensures var (s1, t) := Refresh(s, client, rt, now, a, b);
      FindWithValidAccessToken(s1, Hex.Hex16(a), at) == if at < now + Lifetime then t else None
  {
    var (s1, t) := Refresh(s, client, rt, now, a, b);
    assert t.value.accessToken == Some(Hex.Hex16(a));
    FindUnique(s1, t.value, at);
  }
}

=== FILE: text.dfy ===
/** The Ruby string operations the engine relies on: `blank?`/`present?`,
    `split(/\s/)`, and the character filtering behind `friendly_token`. */
module Text {
  import opened Base

  /** The characters of the regular-expression class `\s`. */
  predicate IsSpace(c: char) {
    c == ' ' || c == '\t' || c == '\n' || c == '\U{B}' || c == '\U{C}' || c == '\r'
  }

  /** The characters of the POSIX bracket class `[[:space:]]` on a Unicode
      string: the code points with the White_Space property. Wider than
      `\s`, which is ASCII-only. */
  predicate IsUnicodeSpace(c: char) {
    || ('\U{9}' <= c <= '\U{D}') || c == ' ' || c == '\U{85}' || c == '\U{A0}' || c == '\U{1680}'
    || ('\U{2000}' <= c <= '\U{200A}') || c == '\U{2028}' || c == '\U{2029}' || c == '\U{202F}'
    || c == '\U{205F}' || c == '\U{3000}'
  }

  /** `nil.blank?` and `str.blank?` (ActiveSupport matches
      `/\A[[:space:]]*\z/`): absent, empty, or Unicode whitespace only. */
  predicate Blank(s: Option<string>) {
    s.None? || forall i :: 0 <= i < |s.value| ==> IsUnicodeSpace(s.value[i])
  }

  predicate Present(s: Option<string>) {
    !Blank(s)
  }

  lemma PresentHasNonSpace(s: string, k: int)
    requires 0 <= k < |s| && !IsUnicodeSpace(s[k])
    ensures Present(Some(s))
  {
  }

  /** Every `\s` character is also blank, so a string `split` or `strip`
      would treat as whitespace is blank too; the converse fails, e.g. for
      the no-break space U+00A0. */
  lemma SpaceIsBlank(c: char)
    ensures IsSpace(c) ==> IsUnicodeSpace(c)
    ensures IsUnicodeSpace('\U{A0}') && !IsSpace('\U{A0}')
    ensures Blank(Some("\U{A0}\U{3000}")) && Split("\U{A0}") == ["\U{A0}"]
  {
    NoSpaceFields("\U{A0}");
  }

  function SpaceCount(s: string): nat {
    if s == [] then 0 else (if IsSpace(s[0]) then 1 else 0) + SpaceCount(s[1..])
  }

  /** The whitespace characters of `s`, in order. */
  function Separators(s: string): (r: string)
    ensures |r| == SpaceCount(s)
    ensures forall i :: 0 <= i < |r| ==> IsSpace(r[i])
  {
    if s == [] then [] else (if IsSpace(s[0]) then [s[0]] else []) + Separators(s[1..])
  }

  /** Splitting at every single whitespace character, keeping every field,
      including empty ones. */
  function Fields(s: string): (r: seq<string>)
    ensures |r| == SpaceCount(s) + 1
    ensures forall i, j :: 0 <= i < |r| && 0 <= j < |r[i]| ==> !IsSpace(r[i][j])
  {
    if s == [] then [[]]
    else
      var rest := Fields(s[1..]);
      if IsSpace(s[0]) then [[]] + rest else [[s[0]] + rest[0]] + rest[1..]
  }

  /** Glue fields back together with the given separators between them. */
  function Join(fs: seq<string>, seps: string): string
    requires |fs| == |seps| + 1
  {
    if |seps| == 0 then fs[0] else fs[0] + [seps[0]] + Join(fs[1..], seps[1..])
  }

  /** `Fields` loses nothing: re-joining with the original separators gives
      back the header exactly. */
  lemma {:induction false} FieldsJoin(s: string)
    ensures Join(Fields(s), Separators(s)) == s
  {
    if s != [] {
      var c, t := s[0], s[1..];
      FieldsJoin(t);
      var rest := Fields(t);
      var seps := Separators(t);
      assert s == [c] + t;
      if IsSpace(c) {
        var fs := [[]] + rest;
        assert Fields(s) == fs && Separators(s) == [c] + seps;
        assert fs[1..] == rest && ([c] + seps)[1..] == seps;
      } else {
        var fs := [[c] + rest[0]] + rest[1..];
        assert Fields(s) == fs && Separators(s) == seps;
        if |seps| > 0 {
          assert fs[1..] == rest[1..];
          assert Join(rest, seps) == rest[0] + [seps[0]] + Join(rest[1..], seps[1..]);
        }
      }
    }
  }

  function DropTrailingEmpty(fs: seq<string>): (r: seq<string>)
    ensures |r| <= |fs| && r == fs[..|r|]
    ensures r == [] || r[|r| - 1] != []
    ensures forall i :: |r| <= i < |fs| ==> fs[i] == []
  {
    if fs == [] then []
    else if fs[|fs| - 1] == [] then DropTrailingEmpty(fs[..|fs| - 1])
    else fs
  }

  /** Ruby's `str.split(/\s/)`: split at each whitespace character, keep
      leading empty fields, drop trailing empty ones. */
  function Split(s: string): (r: seq<string>)
    ensures |r| <= SpaceCount(s) + 1 && r == Fields(s)[..|r|]
    ensures r == [] || r[|r| - 1] != []
    ensures forall i :: |r| <= i < |Fields(s)| ==> Fields(s)[i] == []
    ensures forall i, j :: 0 <= i < |r| && 0 <= j < |r[i]| ==> !IsSpace(r[i][j])
  {
    DropTrailingEmpty(Fields(s))
  }

  /** A scheme word, one space, and a non-empty whitespace-free credential
      split into exactly those two words. */
  lemma {:induction false} SplitSchemeAndCredential(scheme: string, cred: string)
    requires scheme != [] && cred != []
    requires forall i :: 0 <= i < |scheme| ==> !IsSpace(scheme[i])
    requires forall i :: 0 <= i < |cred| ==> !IsSpace(cred[i])
    ensures Split(scheme + " " + cred) == [scheme, cred]
  {
    NoSpaceFields(scheme);
    NoSpaceFields(cred);
    FieldsAppend(scheme, cred);
  }

  lemma {:induction false} NoSpaceFields(w: string)
    requires forall i :: 0 <= i < |w| ==> !IsSpace(w[i])
    ensures Fields(w) == [w]
  {
    if w != [] {
      NoSpaceFields(w[1..]);
      assert [w[0]] + w[1..] == w;
    }
  }

  lemma {:induction false} FieldsAppend(a: string, b: string)
    requires forall i :: 0 <= i < |a| ==> !IsSpace(a[i])
    ensures Fields(a + " " + b) == [a] + Fields(b)
  {
    var s := a + " " + b;
    if a == [] {
      assert s == [' '] + b;
      assert s[1..] == b;
    } else {
      assert s[0] == a[0];
      assert s[1..] == a[1..] + " " + b;
      FieldsAppend(a[1..], b);
      assert [a[0]] + a[1..] == a;
    }
  }

  /** A header that is only a scheme word and trailing whitespace splits
      into the scheme word alone. */
  lemma {:induction false} SplitTrailingSpace(w: string)
    requires w != []
    requires forall i :: 0 <= i < |w| ==> !IsSpace(w[i])
    ensures Split(w + " ") == [w]
  {
    FieldsAppend(w, []);
    assert w + " " + [] == w + " ";
    assert Fields([]) == [[]];
    var fs := [w] + [[]];
    assert Fields(w + " ") == fs;
    assert fs[..|fs| - 1] == [w];
    assert DropTrailingEmpty(fs) == DropTrailingEmpty([w]);
  }

  /** `tr(chars, '')` and `delete(chars)`: drop every character in `cs`. */
  function Delete(s: string, cs: set<char>): (r: string)
    ensures |r| <= |s|
    ensures forall c :: c in r <==> c !in cs && c in s
  {
    if s == [] then []
    else (if s[0] in cs then [] else [s[0]]) + Delete(s[1..], cs)
  }

  /** `delete` works character by character and keeps the order: a single
      character is kept exactly when it is not deleted, and the result on a
      concatenation is the concatenation of the results. */
  lemma {:induction false} DeleteConcat(a: string, b: string, cs: set<char>)
    ensures Delete(a + b, cs) == Delete(a, cs) + Delete(b, cs)
  {
    if a == [] {
      assert a + b == b;
    } else {
      var head := if a[0] in cs then [] else [a[0]];
      DeleteConcat(a[1..], b, cs);
      assert Delete(a + b, cs) == head + Delete(a[1..] + b, cs) by {
        assert (a + b)[1..] == a[1..] + b;
      }
      assert Delete(a, cs) == head + Delete(a[1..], cs);
      ConcatAssoc(head, Delete(a[1..], cs), Delete(b, cs));
    }
  }

  lemma ConcatAssoc(x: string, y: string, z: string)
    ensures x + (y + z) == (x + y) + z
  {
  }

  /** On a single character `delete` keeps it exactly when it is not one
      of the deleted characters; with `DeleteConcat` this pins every result. */
  lemma DeleteChar(c: char, cs: set<char>)
    ensures Delete([c], cs) == if c in cs then [] else [c]
  {
    assert [c][1..] == [];
  }

  /** The characters `String#strip` removes: whitespace and NUL. */
  predicate IsStripped(c: char) {
    IsSpace(c) || c == '\0'
  }

  function StripLeft(s: string): (r: string)
    ensures |r| <= |s| && r == s[|s| - |r|..]
    ensures r == [] || !IsStripped(r[0])
    ensures forall k :: 0 <= k < |s| - |r| ==> IsStripped(s[k])
    ensures forall c :: c in r ==> c in s
  {
    if s != [] && IsStripped(s[0]) then StripLeft(s[1..]) else s
  }

  function StripRight(s: string): (r: string)
    ensures |r| <= |s| && r == s[..|r|]
    ensures r == [] || !IsStripped(r[|r| - 1])
    ensures forall k :: |r| <= k < |s| ==> IsStripped(s[k])
    ensures forall c :: c in r ==> c in s
  {
    if s != [] && IsStripped(s[|s| - 1]) then StripRight(s[..|s| - 1]) else s
  }

  /** `String#strip`: the input with its leading and trailing whitespace
      and NULs cut off, and nothing else removed. */
  function Strip(s: string): (r: string)
    ensures r == [] || (!IsStripped(r[0]) && !IsStripped(r[|r| - 1]))
    ensures forall c :: c in r ==> c in s
    ensures exists i, j ::
      (0 <= i <= j <= |s| && r == s[i..j]
       && (forall k :: 0 <= k < i ==> IsStripped(s[k]))
       && (forall k :: j <= k < |s| ==> IsStripped(s[k])))
  {
    var l := StripLeft(s);
    var r := StripRight(l);
    var i := |s| - |l|;
    assert r == s[i..i + |r|];
    assert forall k :: i + |r| <= k < |s| ==> s[k] == l[k - i];
    r
  }

  /** `strip` leaves a string with nothing to strip as it is. */
  lemma {:induction false} StripNothing(s: string)
    requires forall c :: c in s ==> !IsStripped(c)
    ensures Strip(s) == s
  {
    if s != [] {
      assert !IsStripped(s[0]) && !IsStripped(s[|s| - 1]);
    }
  }

  /** `delete` of characters that do not occur changes nothing. */
  lemma {:induction false} DeleteNothing(s: string, cs: set<char>)
    requires forall c :: c in s ==> c !in cs
    ensures Delete(s, cs) == s
  {
    if s != [] {
      assert s[0] in s;
      assert forall c :: c in s[1..] ==> c in s;
      DeleteNothing(s[1..], cs);
      assert s == [s[0]] + s[1..];
    }
  }
}

=== FILE: tokens.dfy ===
/** What the two token back-ends share: the token record, the bounded
    retention sweep `clean_tokens`, the valid-access-token lookup, and the
    API payload. */
module Tokens {
  import opened Base

  /** At most this many tokens are kept per (client, resource owner) pair. */
  const Retained: nat := 30

  /** A token is re-issued only when fewer than this many seconds remain. */
  const RotationMargin: int := 10

  /** `client_id` is the client's uuid; `resource_owner_id` is the user id
      as a string; `refresh_token` is nil only on an unsaved record. */
  datatype Token = Token(
    clientId: Option<string>,
    ownerId: string,
    accessToken: Option<string>,
    refreshToken: Option<string>,
    expiresAt: Option<int>,
    scope: Option<string>,
    createdAt: int)

  predicate OfPair(t: Token, cid: Option<string>, oid: string) {
    t.clientId == cid && t.ownerId == oid
  }

  /** `with_client(cid).with_resource_owner(oid)`, in store order. */
  function PairTokens(s: seq<Token>, cid: Option<string>, oid: string): (r: seq<Token>)
    ensures |r| <= |s|
  {
    if s == [] then []
    else (if OfPair(s[0], cid, oid) then [s[0]] else []) + PairTokens(s[1..], cid, oid)
  }

  /** Every token of the store that belongs to another pair. */
  function OtherTokens(s: seq<Token>, cid: Option<string>, oid: string): (r: seq<Token>)
    ensures |r| <= |s|
  {
    if s == [] then []
    else (if OfPair(s[0], cid, oid) then [] else [s[0]]) + OtherTokens(s[1..], cid, oid)
  }

  lemma {:induction false} PairMember(s: seq<Token>, cid: Option<string>, oid: string, t: Token)
    ensures t in PairTokens(s, cid, oid) <==> t in s && OfPair(t, cid, oid)
  {
    if s != [] {
      PairMember(s[1..], cid, oid, t);
      assert s == [s[0]] + s[1..];
    }
  }

  lemma {:induction false} PairConcat(a: seq<Token>, b: seq<Token>, cid: Option<string>, oid: string)
    ensures PairTokens(a + b, cid, oid) == PairTokens(a, cid, oid) + PairTokens(b, cid, oid)
  {
    if a == [] {
      assert a + b == b;
    } else {
      var ab := a + b;
      assert ab[0] == a[0];
      assert ab[1..] == a[1..] + b;
      PairConcat(a[1..], b, cid, oid);
      var h := if OfPair(a[0], cid, oid) then [a[0]] else [];
      calc {
        PairTokens(ab, cid, oid);
        h + PairTokens(ab[1..], cid, oid);
        h + (PairTokens(a[1..], cid, oid) + PairTokens(b, cid, oid));
        (h + PairTokens(a[1..], cid, oid)) + PairTokens(b, cid, oid);
      }
    }
  }

  lemma {:induction false} OtherConcat(a: seq<Token>, b: seq<Token>, cid: Option<string>, oid: string)
    ensures OtherTokens(a + b, cid, oid) == OtherTokens(a, cid, oid) + OtherTokens(b, cid, oid)
  {
    if a == [] {
      assert a + b == b;
    } else {
      var ab := a + b;
      assert ab[0] == a[0];
      assert ab[1..] == a[1..] + b;
      OtherConcat(a[1..], b, cid, oid);
      var h := if OfPair(a[0], cid, oid) then [] else [a[0]];
      calc {
        OtherTokens(ab, cid, oid);
        h + OtherTokens(ab[1..], cid, oid);
        h + (OtherTokens(a[1..], cid, oid) + OtherTokens(b, cid, oid));
        (h + OtherTokens(a[1..], cid, oid)) + OtherTokens(b, cid, oid);
      }
    }
  }

  lemma {:induction false} FiltersConcat(a: seq<Token>, b: seq<Token>, cid: Option<string>, oid: string)
    ensures PairTokens(a + b, cid, oid) == PairTokens(a, cid, oid) + PairTokens(b, cid, oid)
    ensures OtherTokens(a + b, cid, oid) == OtherTokens(a, cid, oid) + OtherTokens(b, cid, oid)
  {
    PairConcat(a, b, cid, oid);
    OtherConcat(a, b, cid, oid);
  }

  /** Keeping only the other pairs' tokens leaves none of the pair, and
      doing it twice is doing it once. */
  lemma {:induction false} OtherTokensOfOthers(s: seq<Token>, cid: Option<string>, oid: string)
    ensures PairTokens(OtherTokens(s, cid, oid), cid, oid) == []
    ensures OtherTokens(OtherTokens(s, cid, oid), cid, oid) == OtherTokens(s, cid, oid)
  {
    if s != [] {
      OtherTokensOfOthers(s[1..], cid, oid);
      var rest := OtherTokens(s[1..], cid, oid);
      if OfPair(s[0], cid, oid) {
        assert OtherTokens(s, cid, oid) == [] + rest == rest;
      } else {
        var o := [s[0]] + rest;
        assert OtherTokens(s, cid, oid) == o;
        assert o[0] == s[0] && o[1..] == rest;
      }
    }
  }

  /** The pair's tokens and the other tokens make up the whole store. */
  lemma {:induction false} Partition(s: seq<Token>, cid: Option<string>, oid: string)
    ensures multiset(s) == multiset(PairTokens(s, cid, oid)) + multiset(OtherTokens(s, cid, oid))
    ensures |s| == |PairTokens(s, cid, oid)| + |OtherTokens(s, cid, oid)|
  {
    if s != [] {
      var t, rest := s[0], s[1..];
      Partition(rest, cid, oid);
      assert s == [t] + rest;
      assert multiset(s) == multiset{t} + multiset(rest);
      if OfPair(t, cid, oid) {
        assert PairTokens(s, cid, oid) == [t] + PairTokens(rest, cid, oid);
        assert OtherTokens(s, cid, oid) == OtherTokens(rest, cid, oid);
        assert multiset(PairTokens(s, cid, oid)) == multiset{t} + multiset(PairTokens(rest, cid, oid));
      } else {
        assert PairTokens(s, cid, oid) == PairTokens(rest, cid, oid);
        assert OtherTokens(s, cid, oid) == [t] + OtherTokens(rest, cid, oid);
        assert multiset(OtherTokens(s, cid, oid)) == multiset{t} + multiset(OtherTokens(rest, cid, oid));
      }
    }
  }

  function RemoveAt(s: seq<Token>, i: nat): (r: seq<Token>)
    requires i < |s|
    ensures |r| == |s| - 1
  {
    s[..i] + s[i + 1..]
  }

  lemma {:induction false} RemoveAtFilters(s: seq<Token>, i: nat, cid: Option<string>, oid: string)
    requires i < |s| && OfPair(s[i], cid, oid)
    ensures PairTokens(s, cid, oid)
         == PairTokens(s[..i], cid, oid) + [s[i]] + PairTokens(s[i + 1..], cid, oid)
    ensures PairTokens(RemoveAt(s, i), cid, oid)
         == PairTokens(s[..i], cid, oid) + PairTokens(s[i + 1..], cid, oid)
    ensures OtherTokens(RemoveAt(s, i), cid, oid) == OtherTokens(s, cid, oid)
  {
    var pre, x, post := s[..i], s[i], s[i + 1..];
    assert s == pre + ([x] + post);
    FiltersConcat(pre, [x] + post, cid, oid);
    FiltersConcat([x], post, cid, oid);
    FiltersConcat(pre, post, cid, oid);
    assert PairTokens([x], cid, oid) == [x];
    assert OtherTokens([x], cid, oid) == [];
  }

  lemma Splice(a: seq<Token>, x: Token, b: seq<Token>)
    ensures multiset(a + b) + multiset{x} == multiset(a + [x] + b)
    ensures |a + b| + 1 == |a + [x] + b|
  {
  }

  lemma {:induction false} RemoveAtPair(s: seq<Token>, i: nat, cid: Option<string>, oid: string)
    requires i < |s| && OfPair(s[i], cid, oid)
    ensures multiset(PairTokens(RemoveAt(s, i), cid, oid)) + multiset{s[i]} == multiset(PairTokens(s, cid, oid))
    ensures |PairTokens(RemoveAt(s, i), cid, oid)| + 1 == |PairTokens(s, cid, oid)|
    ensures OtherTokens(RemoveAt(s, i), cid, oid) == OtherTokens(s, cid, oid)
  {
    RemoveAtFilters(s, i, cid, oid);
    Splice(PairTokens(s[..i], cid, oid), s[i], PairTokens(s[i + 1..], cid, oid));
  }

  /** Position of the first token of the pair. */
  function FirstOfPair(s: seq<Token>, cid: Option<string>, oid: string): (i: nat)
    requires exists k :: 0 <= k < |s| && OfPair(s[k], cid, oid)
    ensures i < |s| && OfPair(s[i], cid, oid)
    ensures forall k :: 0 <= k < i ==> !OfPair(s[k], cid, oid)
  {
    if OfPair(s[0], cid, oid) then 0
    else
      assert exists k :: 0 <= k < |s[1..]| && OfPair(s[1..][k], cid, oid) by {
        var k :| 0 <= k < |s| && OfPair(s[k], cid, oid);
        assert s[1..][k - 1] == s[k];
      }
      1 + FirstOfPair(s[1..], cid, oid)
  }

  /** Scanning from `j`, the pair token with the earliest `created_at`,
      `best` being the earliest seen so far. */
  function EarliestFrom(s: seq<Token>, cid: Option<string>, oid: string, best: nat, j: nat): (i: nat)
    requires best < j <= |s| && OfPair(s[best], cid, oid)
    requires forall k :: 0 <= k < j && OfPair(s[k], cid, oid) ==> s[best].createdAt <= s[k].createdAt
    requires forall k :: 0 <= k < best && OfPair(s[k], cid, oid) ==> s[best].createdAt < s[k].createdAt
    ensures i < |s| && OfPair(s[i], cid, oid)
    ensures forall k :: 0 <= k < |s| && OfPair(s[k], cid, oid) ==> s[i].createdAt <= s[k].createdAt
    ensures forall k :: 0 <= k < i && OfPair(s[k], cid, oid) ==> s[i].createdAt < s[k].createdAt
    decreases |s| - j
  {
    if j == |s| then best
    else if OfPair(s[j], cid, oid) && s[j].createdAt < s[best].createdAt then EarliestFrom(s, cid, oid, j, j + 1)
    else EarliestFrom(s, cid, oid, best, j + 1)
  }

  /** The position `oldest_first` lists first: the earliest `created_at` of
      the pair, the earliest stored among equals. */
  function OldestIndex(s: seq<Token>, cid: Option<string>, oid: string): (i: nat)
    requires exists k :: 0 <= k < |s| && OfPair(s[k], cid, oid)
    ensures i < |s| && OfPair(s[i], cid, oid)
    ensures forall k :: 0 <= k < |s| && OfPair(s[k], cid, oid) ==> s[i].createdAt <= s[k].createdAt
    ensures forall k :: 0 <= k < i && OfPair(s[k], cid, oid) ==> s[i].createdAt < s[k].createdAt
  {
    var f := FirstOfPair(s, cid, oid);
    EarliestFrom(s, cid, oid, f, f + 1)
  }

  lemma {:induction false} NonEmptyPair(s: seq<Token>, cid: Option<string>, oid: string)
    requires |PairTokens(s, cid, oid)| > 0
    ensures exists k :: 0 <= k < |s| && OfPair(s[k], cid, oid)
  {
    var t := PairTokens(s, cid, oid)[0];
    PairMember(s, cid, oid, t);
  }

  /** One deletion of the sweep: the oldest token of the pair removed. */
  function DropOldest(s: seq<Token>, cid: Option<string>, oid: string): (r: seq<Token>)
    requires |PairTokens(s, cid, oid)| > 0
    ensures |PairTokens(r, cid, oid)| + 1 == |PairTokens(s, cid, oid)|
    ensures OtherTokens(r, cid, oid) == OtherTokens(s, cid, oid)
  {
    NonEmptyPair(s, cid, oid);
    var i := OldestIndex(s, cid, oid);
    RemoveAtPair(s, i, cid, oid);
    RemoveAt(s, i)
  }

  /** `oldest_first.limit(k)` deleted, one token at a time. */
  function RemoveOldest(s: seq<Token>, cid: Option<string>, oid: string, k: nat): (r: seq<Token>)
    requires k <= |PairTokens(s, cid, oid)|
    ensures |PairTokens(r, cid, oid)| == |PairTokens(s, cid, oid)| - k
    ensures OtherTokens(r, cid, oid) == OtherTokens(s, cid, oid)
    decreases k
  {
    if k == 0 then s else RemoveOldest(DropOldest(s, cid, oid), cid, oid, k - 1)
  }

  /** Every token of `older` was created no later than every token of
      `kept`. */
  ghost predicate OlderBag(older: multiset<Token>, kept: multiset<Token>) {
    forall x, y :: x in older && y in kept ==> x.createdAt <= y.createdAt
  }

  /** Deleted tokens of the pair are never younger than its kept tokens. */
  ghost predicate OldestRemoved(s: seq<Token>, r: seq<Token>, cid: Option<string>, oid: string) {
    OlderBag(multiset(PairTokens(s, cid, oid)) - multiset(PairTokens(r, cid, oid)), multiset(PairTokens(r, cid, oid)))
  }

  lemma BagStep(whole: multiset<Token>, rest: multiset<Token>, kept: multiset<Token>, x0: Token)
    requires rest + multiset{x0} == whole
    requires kept <= rest
    requires OlderBag(rest - kept, kept)
    requires forall y :: y in whole ==> x0.createdAt <= y.createdAt
    ensures kept <= whole
    ensures OlderBag(whole - kept, kept)
  {
    forall x, y | x in whole - kept && y in kept
      ensures x.createdAt <= y.createdAt
    {
      if x != x0 {
        assert (rest + multiset{x0})[x] == rest[x];
        assert x in rest - kept;
      }
    }
  }

  /** The token at `OldestIndex` is no younger than any token of the pair. */
  lemma {:induction false} OldestBound(s: seq<Token>, cid: Option<string>, oid: string)
    requires exists k :: 0 <= k < |s| && OfPair(s[k], cid, oid)
    ensures forall y :: y in multiset(PairTokens(s, cid, oid)) ==> s[OldestIndex(s, cid, oid)].createdAt <= y.createdAt
  {
    forall y | y in multiset(PairTokens(s, cid, oid))
      ensures s[OldestIndex(s, cid, oid)].createdAt <= y.createdAt
    {
      assert y in PairTokens(s, cid, oid);
      PairMember(s, cid, oid, y);
    }
  }

  /** `RemoveOldest` deletes only tokens of the pair, and only the oldest. */
  lemma {:induction false} RemoveOldestOrder(s: seq<Token>, cid: Option<string>, oid: string, k: nat)
    requires k <= |PairTokens(s, cid, oid)|
    ensures multiset(PairTokens(RemoveOldest(s, cid, oid, k), cid, oid)) <= multiset(PairTokens(s, cid, oid))
    ensures OldestRemoved(s, RemoveOldest(s, cid, oid, k), cid, oid)
    decreases k
  {
    if k > 0 {
      NonEmptyPair(s, cid, oid);
      var i := OldestIndex(s, cid, oid);
      var s1 := DropOldest(s, cid, oid);
      var r := RemoveOldest(s1, cid, oid, k - 1);
      assert RemoveOldest(s, cid, oid, k) == r;
      var whole, rest, kept := multiset(PairTokens(s, cid, oid)), multiset(PairTokens(s1, cid, oid)),
                               multiset(PairTokens(r, cid, oid));
      assert rest + multiset{s[i]} == whole by {
        RemoveAtPair(s, i, cid, oid);
      }
      assert kept <= rest && OlderBag(rest - kept, kept) by {
        RemoveOldestOrder(s1, cid, oid, k - 1);
      }
      assert forall y :: y in whole ==> s[i].createdAt <= y.createdAt by {
        OldestBound(s, cid, oid);
      }
      BagStep(whole, rest, kept, s[i]);
    }
  }

  function Min(a: int, b: int): int {
    if a < b then a else b
  }

  /** `clean_tokens(client, user)`: when the pair has more than 30 tokens,
      delete the `count - 30` oldest; otherwise delete nothing. */
  function CleanTokens(s: seq<Token>, cid: Option<string>, oid: string): (r: seq<Token>)
    ensures |PairTokens(s, cid, oid)| > Retained ==> |PairTokens(r, cid, oid)| == Retained
    ensures |PairTokens(s, cid, oid)| <= Retained ==> r == s
    ensures OtherTokens(r, cid, oid) == OtherTokens(s, cid, oid)
  {
    var n := |PairTokens(s, cid, oid)|;
    if n > Retained then RemoveOldest(s, cid, oid, n - Retained) else s
  }

  lemma CleanTokensKeepsSmall(s: seq<Token>, cid: Option<string>, oid: string)
    requires |PairTokens(s, cid, oid)| <= Retained
    ensures CleanTokens(s, cid, oid) == s
  {
  }

  lemma CleanTokensTrims(s: seq<Token>, cid: Option<string>, oid: string)
    requires |PairTokens(s, cid, oid)| > Retained
    ensures CleanTokens(s, cid, oid) == RemoveOldest(s, cid, oid, |PairTokens(s, cid, oid)| - Retained)
  {
  }

  /** The pair keeps `min(count, 30)` tokens and other pairs are untouched. */
  lemma {:induction false} CleanTokensCount(s: seq<Token>, cid: Option<string>, oid: string)
    ensures |PairTokens(CleanTokens(s, cid, oid), cid, oid)| == Min(|PairTokens(s, cid, oid)|, Retained)
    ensures OtherTokens(CleanTokens(s, cid, oid), cid, oid) == OtherTokens(s, cid, oid)
  {
    if |PairTokens(s, cid, oid)| <= Retained {
      CleanTokensKeepsSmall(s, cid, oid);
    }
  }

  lemma {:induction false} TrimmedAreOldest(s: seq<Token>, cid: Option<string>, oid: string)
    requires |PairTokens(s, cid, oid)| > Retained
    ensures multiset(PairTokens(CleanTokens(s, cid, oid), cid, oid)) <= multiset(PairTokens(s, cid, oid))
    ensures OldestRemoved(s, CleanTokens(s, cid, oid), cid, oid)
  {
    var k := |PairTokens(s, cid, oid)| - Retained;
    assert CleanTokens(s, cid, oid) == RemoveOldest(s, cid, oid, k) by {
      CleanTokensTrims(s, cid, oid);
    }
    assert multiset(PairTokens(RemoveOldest(s, cid, oid, k), cid, oid)) <= multiset(PairTokens(s, cid, oid))
        && OldestRemoved(s, RemoveOldest(s, cid, oid, k), cid, oid) by {
      RemoveOldestOrder(s, cid, oid, k);
    }
  }

  lemma {:induction false} UntrimmedKeepsAll(s: seq<Token>, cid: Option<string>, oid: string)
    requires |PairTokens(s, cid, oid)| <= Retained
    ensures multiset(PairTokens(CleanTokens(s, cid, oid), cid, oid)) <= multiset(PairTokens(s, cid, oid))
    ensures OldestRemoved(s, CleanTokens(s, cid, oid), cid, oid)
  {
    CleanTokensKeepsSmall(s, cid, oid);
    var p := multiset(PairTokens(s, cid, oid));
    assert p - p == multiset{};
    assert OlderBag(multiset{}, p);
  }

  /** The tokens `clean_tokens` deletes are the pair's oldest. */
  lemma {:induction false} CleanTokensRetention(s: seq<Token>, cid: Option<string>, oid: string)
    ensures multiset(PairTokens(CleanTokens(s, cid, oid), cid, oid)) <= multiset(PairTokens(s, cid, oid))
    ensures OldestRemoved(s, CleanTokens(s, cid, oid), cid, oid)
  {
    if |PairTokens(s, cid, oid)| > Retained {
      TrimmedAreOldest(s, cid, oid);
    } else {
      UntrimmedKeepsAll(s, cid, oid);
    }
  }

  /** `t` is stored last and is at least as young as every token of its
      pair. */
  ghost predicate NewestLast(s: seq<Token>, cid: Option<string>, oid: string, t: Token) {
    && |s| > 0 && s[|s| - 1] == t && OfPair(t, cid, oid)
    && forall j :: 0 <= j < |s| && OfPair(s[j], cid, oid) ==> s[j].createdAt <= t.createdAt
  }

  /** A store whose only pair token is its last element has one pair token. */
  lemma {:induction false} OnlyLastOfPair(s: seq<Token>, cid: Option<string>, oid: string)
    requires |s| > 0
    requires forall j :: 0 <= j < |s| - 1 ==> !OfPair(s[j], cid, oid)
    ensures |PairTokens(s, cid, oid)| <= 1
  {
    var n := |s|;
    var a := s[..n - 1];
    if PairTokens(a, cid, oid) != [] {
      PairMember(a, cid, oid, PairTokens(a, cid, oid)[0]);
      assert false;
    }
    FiltersConcat(a, [s[n - 1]], cid, oid);
    assert s == a + [s[n - 1]];
  }

  /** Dropping the oldest of two or more pair tokens keeps the newest last. */
  lemma {:induction false} DropOldestKeepsNewest(s: seq<Token>, cid: Option<string>, oid: string, t: Token)
    requires NewestLast(s, cid, oid, t)
    requires |PairTokens(s, cid, oid)| > 1
    ensures NewestLast(DropOldest(s, cid, oid), cid, oid, t)
  {
    NonEmptyPair(s, cid, oid);
    var i := OldestIndex(s, cid, oid);
    var n := |s|;
    if i == n - 1 {
      OnlyLastOfPair(s, cid, oid);
    }
    var s1 := RemoveAt(s, i);
    assert s1 == DropOldest(s, cid, oid);
    assert s1[|s1| - 1] == s[n - 1];
    forall j | 0 <= j < |s1| && OfPair(s1[j], cid, oid)
      ensures s1[j].createdAt <= t.createdAt
    {
      if j < i { assert s1[j] == s[j]; } else { assert s1[j] == s[j + 1]; }
    }
  }

  /** The sweep never deletes the newest token: a pair token stored last and
      at least as young as every other token of the pair survives. */
  lemma {:induction false} RemoveOldestKeepsNewest(s: seq<Token>, cid: Option<string>, oid: string, k: nat, t: Token)
    requires NewestLast(s, cid, oid, t)
    requires k < |PairTokens(s, cid, oid)|
    ensures NewestLast(RemoveOldest(s, cid, oid, k), cid, oid, t)
    decreases k
  {
    if k > 0 {
      var s1 := DropOldest(s, cid, oid);
      DropOldestKeepsNewest(s, cid, oid, t);
      RemoveOldestKeepsNewest(s1, cid, oid, k - 1, t);
    }
  }

  /** The newest token of the pair survives `clean_tokens`, still last. */
  lemma {:induction false} CleanTokensKeepsNewest(s: seq<Token>, cid: Option<string>, oid: string, t: Token)
    requires NewestLast(s, cid, oid, t)
    ensures NewestLast(CleanTokens(s, cid, oid), cid, oid, t)
  {
    var n := |PairTokens(s, cid, oid)|;
    if n > Retained {
      CleanTokensTrims(s, cid, oid);
      RemoveOldestKeepsNewest(s, cid, oid, n - Retained, t);
    } else {
      CleanTokensKeepsSmall(s, cid, oid);
    }
  }

  /** `clean_tokens` only deletes: every surviving token was stored before. */
  lemma {:induction false} CleanTokensSubset(s: seq<Token>, cid: Option<string>, oid: string)
    ensures multiset(CleanTokens(s, cid, oid)) <= multiset(s)
    ensures forall x :: x in CleanTokens(s, cid, oid) ==> x in s
  {
    var r := CleanTokens(s, cid, oid);
    CleanTokensRetention(s, cid, oid);
    Partition(s, cid, oid);
    Partition(r, cid, oid);
    assert OtherTokens(r, cid, oid) == OtherTokens(s, cid, oid);
    assert multiset(r) <= multiset(s);
    forall x | x in r ensures x in s {
      assert x in multiset(r);
    }
  }

  /** A token saved at `now` and appended to a store whose pair tokens are
      no younger than `now` survives the `clean_tokens` that follows. */
  lemma {:induction false} AppendNewestSurvives(s: seq<Token>, t: Token, now: int)
    requires t.createdAt == now
    requires forall x :: x in s && OfPair(x, t.clientId, t.ownerId) ==> x.createdAt <= now
    ensures NewestLast(CleanTokens(s + [t], t.clientId, t.ownerId), t.clientId, t.ownerId, t)
  {
    var s1 := s + [t];
    forall j | 0 <= j < |s1| && OfPair(s1[j], t.clientId, t.ownerId)
      ensures s1[j].createdAt <= t.createdAt
    {
      if j < |s| { assert s1[j] == s[j]; }
    }
    CleanTokensKeepsNewest(s1, t.clientId, t.ownerId, t);
  }

  /** `access_token_valid?`: the expiry lies strictly in the future. */
  predicate AccessTokenValid(t: Token, now: int) {
    t.expiresAt.Some? && t.expiresAt.value > now
  }

  /** `with_access_token(at).not_expired`: the query both back-ends run. */
  predicate MatchesUnexpired(t: Token, at: string, now: int) {
    t.accessToken == Some(at) && t.expiresAt.Some? && t.expiresAt.value > now
  }

  /** `find_with_valid_access_token(at)`: the first token with that access
      token whose expiry is strictly after `now`, checked once by the query
      and once more by `access_token_valid?`. */
  function FindWithValidAccessToken(s: seq<Token>, at: string, now: int): (r: Option<Token>)
    ensures r.Some? ==>
      r.value in s && r.value.accessToken == Some(at) && r.value.expiresAt.Some? && r.value.expiresAt.value > now
    ensures r.None? <==> forall t :: t in s && t.accessToken == Some(at) ==> t.expiresAt.None? || t.expiresAt.value <= now
  {
    match First(s, t => MatchesUnexpired(t, at, now))
    case None => None
    case Some(i) => if AccessTokenValid(s[i], now) then Some(s[i]) else None
  }

  /** A token is rejected from its expiry instant onwards and accepted
      before it, when it is the only one carrying its access token. */
  lemma FindAtExpiry(s: seq<Token>, k: int, now: int)
    requires 0 <= k < |s| && s[k].accessToken.Some? && s[k].expiresAt.Some?
    requires forall j :: 0 <= j < |s| && j != k ==> s[j].accessToken != s[k].accessToken
    ensures FindWithValidAccessToken(s, s[k].accessToken.value, now) == if now < s[k].expiresAt.value then Some(s[k]) else None
  {
  }

  /** Lookup of a token whose access token no other stored token carries:
      found exactly while it is unexpired. */
  lemma {:induction false} FindUnique(s: seq<Token>, t: Token, now: int)
    requires t in s && t.accessToken.Some?
    requires forall x :: x in s && x.accessToken == t.accessToken ==> x == t
    ensures FindWithValidAccessToken(s, t.accessToken.value, now)
         == if AccessTokenValid(t, now) then Some(t) else None
  {
    var r := FindWithValidAccessToken(s, t.accessToken.value, now);
    if AccessTokenValid(t, now) {
      assert r.Some?;
    }
  }

  /** The `to_api` fields common to both back-ends; the expiry must be set,
      since `nil - Time.now` raises. */
  function CorePayload(t: Token, now: int): (r: Outcome<Payload>)
    ensures t.expiresAt.None? <==> r.Raised?
    ensures r.Raised? ==> r.fault == NoMethodError
    ensures r.Done? ==> r.value.Keys == {"access_token", "token_type", "expires_in", "refresh_token", "scope"}
    ensures r.Done? ==>
      && r.value["token_type"] == JStr("bearer")
      && r.value["expires_in"] == JInt(t.expiresAt.value - now)
      && r.value["access_token"] == StrOrNull(t.accessToken)
      && r.value["refresh_token"] == StrOrNull(t.refreshToken)
      && r.value["scope"] == StrOrNull(t.scope)
  {
    match t.expiresAt
    case None => Raised(NoMethodError)
    case Some(exp) =>
      Done(map[
        "access_token" := StrOrNull(t.accessToken),
        "token_type" := JStr("bearer"),
        "expires_in" := JInt(exp - now),
        "refresh_token" := StrOrNull(t.refreshToken),
        "scope" := StrOrNull(t.scope)])
  }

  function Replace(s: seq<Token>, i: nat, t: Token): (r: seq<Token>)
    requires i < |s|
    ensures |r| == |s| && r[i] == t
    ensures forall j :: 0 <= j < |s| && j != i ==> r[j] == s[j]
  {
    s[i := t]
  }

  predicate MatchesRefresh(t: Token, cid: Option<string>, rt: Option<string>) {
    t.clientId == cid && t.refreshToken == rt
  }

  /** `i` indexes the token `with_client(cid).with_refresh_token(rt).first`
      returns: the first stored token of the client carrying `rt`. */
  predicate FirstRefresh(s: seq<Token>, cid: Option<string>, rt: Option<string>, i: int) {
    0 <= i < |s| && MatchesRefresh(s[i], cid, rt) && forall j :: 0 <= j < i ==> !MatchesRefresh(s[j], cid, rt)
  }
}
